=== FILE: README.md ===
# log-monitor, modelled in Dafny

This project models the two programs at the core of log-monitor.

- `log_generator.py` writes synthetic security log lines to a file. Each line is a
  comma-separated record with seven fields: timestamp, level, event type, source
  address, target resource, status and message. Most lines are normal. With
  probability 0.05 a line comes from one of three weighted anomaly templates.
- `log_processor.py` does two things with that file:
  - It reads a first stretch of the file and turns each line into a six-number
    feature vector to train an outlier detector.
  - It then follows the file. Each cycle it reads the new lines and parses each as
    CSV, checking the field count and the timestamp. It buffers the feature vectors,
    scores a full buffer of 100 with the detector and writes one search document per
    accepted line. Once a cycle's lines are processed it commits.

The modules follow that structure:

| module | file | what it holds |
|---|---|---|
| `Common` | common.dfy | `Option`/`Result`, decimal text, Python's `str.strip()`, `','.join`, concatenation |
| `Calendar` | calendar.dfy | proleptic Gregorian dates, day ordinals and `weekday()` |
| `Timestamp` | timestamp.dfy | `strptime`/`strftime` with `"%Y-%m-%d %H:%M:%S"`, and the `%Y%m%d%H%M%S%f` stamp |
| `CsvReader` | csv_reader.dfy | the `csv.reader` state machine for the default dialect, on one line |
| `Features` | features.dfy | `extract_features`: the level and event-type maps, the FAILURE test, the keyword search, the time features |
| `Pipeline` | pipeline.dfy | `process_log_entry` as a step over the processor's state, the batch scoring, training rows and `train_anomaly_detector` |
| `Tailer` | tailer.dfy | `readlines()`/`readline()` on a file snapshot, the training pass, one monitoring cycle |
| `Weighted` | weighted.dfy | `random.choices` with weights, as running totals and `bisect_right` |
| `Generator` | generator.dfy | the generator's constants, both line builders, the writing loop, and what the processor makes of its output |

Some inputs come from outside the programs. The model takes them as parameters:

- the clock (`datetime.now()`);
- every random draw (`random.random()`, `random.choice`, `random.randint`);
- the file contents at each read;
- the detector's fit and predict functions.

## Model

| member | source | states |
|---|---|---|
| Features.LevelRank | log_processor.py:42-44 | the level's number is -1 exactly when the level is none of the seven names, and otherwise names a rank whose group holds it (WARN/WARNING share 2, CRITICAL/FATAL share 4) |
| Features.EventTypeRank | log_processor.py:45-50 | the event type's number is its position among the twelve names, and -1 exactly when it is not one of them |
| Features.FailureFlag | log_processor.py:79 | the flag is 1 exactly when the status upper-cases to FAILURE, character by character, including the non-ASCII characters that upper-case to I or S |
| Features.SuspiciousFlag | log_processor.py:80 | the flag is 1 exactly when one of the five keywords occurs somewhere in the message, ignoring case |
| Features.TimeFeatures | log_processor.py:82-88 | an unparseable timestamp gives (0, -1); a parseable one gives minutes since midnight and the weekday of that date |
| Features.ExtractFeatures | log_processor.py:76-97 | the six features as the maps, the status test, the keyword search and the timestamp define them, with their ranges; level -1 exactly when the level field is none of the seven names; day -1 exactly when the timestamp does not parse, and otherwise the minute of the day and the weekday of the parsed time |
| Calendar.Weekday | log_processor.py:85 | the weekday is in 0..6, and it is the day ordinal's distance from the Monday 0001-01-01, modulo 7 |
| Calendar.WeekdayAnchor | log_processor.py:85 | 0001-01-01 and 2024-01-01 are weekday 0 (Monday) and 2024-01-07 is weekday 6 (Sunday) |
| Calendar.WeekdayNextDay | log_processor.py:85 | the weekday of the next day is one more, modulo 7, so Sunday is followed by Monday |
| Timestamp.Parse | log_processor.py:133-137 | a text parses exactly when it has the 19-character shape and names a real date and time, and the result is read from those digits |
| Timestamp.Format | log_generator.py:54 | with a four-digit year the text has the canonical 19-character shape and its digits spell exactly the given time |
| Timestamp.CompactStamp | log_processor.py:154 | the stamp is all digits, 20 of them for a four-digit year; its leading digits read as the year, the next five pairs as month, day, hour, minute and second, and the last six are the zero microseconds |
| Timestamp.ParseFormat | log_generator.py:54 | formatting a valid time with a four-digit year and parsing it again gives the same time |
| Timestamp.FormatParse | log_processor.py:133-134 | a parsed timestamp with a four-digit year formats back to the very text it came from |
| Timestamp.CompactStampInjective | log_processor.py:154 | two valid times of any year have the same `%Y%m%d%H%M%S%f` stamp exactly when they are equal |
| CsvReader.ParseLine | log_processor.py:121-131 | reading a line fails with "no record" exactly when the line is empty, and no field it returns exceeds the field size limit |
| CsvReader.PlainRoundTrip | log_processor.py:121-125 | fields with no comma, quote or line break, joined by commas, read back as exactly those fields |
| CsvReader.UnquotedLineIsSplit | log_processor.py:121-125 | a non-empty line without quotes or line breaks reads as its comma-separated pieces |
| CsvReader.QuotedRoundTrip | log_processor.py:121-125 | any fields, each quoted with doubled inner quotes and joined by commas, read back as exactly those fields |
| Pipeline.Accept | log_processor.py:121-137 | a line is accepted exactly when CSV reading succeeds with seven fields and a parseable timestamp; each rejection names the failed check |
| Pipeline.DocId | log_processor.py:154 | the document id is the time's stamp, an underscore and the suffix in decimal; the underscore is its only non-digit; with a four-digit year the stamp is 20 digits and the id 22 to 26 characters |
| Pipeline.DocIdInjective | log_processor.py:154 | two ids of valid times are equal exactly when both the times and the suffixes are equal |
| Pipeline.ProcessLogEntry | log_processor.py:118-167 | a rejected line leaves the state alone and reports the reason; an accepted line is admitted with its feature entry and its document |
| Pipeline.Admit | log_processor.py:139-167 | the document is always written; with a trained model and a buffer that reaches 100, the whole buffer is scored and emptied, otherwise the entry is only buffered |
| Pipeline.ProcessAccepted | log_processor.py:139-167 | for an accepted line, the new pending document holds the line's fields, time and id; earlier documents and commits are kept, and the buffer is scored and cleared or grown by the line's features |
| Pipeline.FlaggedMembership | log_processor.py:146-150 | a line is reported exactly when some buffer entry the detector calls an outlier has that stripped raw line |
| Pipeline.ReportAnomalies | log_processor.py:143-150 | the loop over the predictions reports the outliers' lines in buffer order |
| Pipeline.ProcessAll | log_processor.py:218-219 | processing a cycle's lines in order keeps the committed documents and only appends to the pending ones |
| Pipeline.Commit | log_processor.py:220 | committing moves every pending document after the committed ones and leaves the buffer alone |
| Pipeline.BufferBounded | log_processor.py:142-152 | with a trained model, a buffer below 100 stays below 100 over any run of lines |
| Pipeline.BufferCountsModulo | log_processor.py:140-152 | with a trained model, from the empty state, the buffer holds the number of accepted lines modulo 100 |
| Pipeline.NoModelNeverReports | log_processor.py:142 | without a model nothing is ever reported and the buffer grows by every accepted line |
| Pipeline.DocumentsWritten | log_processor.py:157-167 | a run of lines writes one document per accepted line and no other |
| Pipeline.TrainingRow | log_processor.py:187-194 | a training line gives a row exactly when its stripped text reads as CSV with seven fields, and the row is the feature vector of those fields |
| Pipeline.AcceptedTrains | log_processor.py:187-194 | a line the processor would accept gives a training row equal to its feature vector |
| Pipeline.TrainingIsLaxer | log_processor.py:187-194 | a seven-field line with a bad timestamp still trains, with day -1, although the processor rejects it |
| Pipeline.Train | log_processor.py:99-115 | no rows gives no detector, and any rows give the detector fitted on exactly those rows |
| Tailer.SplitLines | log_processor.py:213 | the lines concatenate back to the text, each but the last ends in a line feed, and only empty text gives no lines |
| Tailer.SplitConcat | log_processor.py:213 | splitting the concatenation of well-shaped lines gives those lines back |
| Tailer.Poll | log_processor.py:211-214 | from an offset inside the file the read returns exactly the rest of the file and moves to its end; past the end, as after a truncation, it returns nothing and stays |
| Tailer.Follow | log_processor.py:209-214 | over any run of polls the offset never moves back and ends at or past the end of every snapshot |
| Tailer.FollowEnds | log_processor.py:212-214 | after any run of polls the offset is the starting one or the length of some snapshot |
| Tailer.FollowCovers | log_processor.py:209-220 | over a growing file, successive polls together return exactly the text after the starting offset and end at the file's end |
| Tailer.PartialLineSplits | log_processor.py:213-214 | for any text and offset, text read before its line feed arrives is returned in two polls, as the lines of each piece, since the code holds nothing back |
| Tailer.CollectTraining | log_processor.py:177-198 | the training rows are the first rows the whole file offers, up to 35000; the pass stops short of the end of the file only after 35000 rows, and whenever it has 35000 rows it resumes just past the line that gave the last one, even if only rowless lines follow |
| Tailer.Cycle | log_processor.py:209-220 | a cycle moves the offset to the file's end; a cycle that reads nothing changes nothing else; one that reads lines leaves nothing pending |
| Tailer.CycleCommits | log_processor.py:209-220 | after a cycle that reads lines, the committed documents grow by the pending ones plus one per accepted line |
| Weighted.CumWeights | log_generator.py:66 | entry `i` of the running totals is the sum of the first `i + 1` weights, and the totals never decrease |
| Weighted.BisectRight | log_generator.py:66 | the position returned splits the searched range into entries at most the point and entries above it |
| Weighted.ChooseWeighted | log_generator.py:66 | the chosen position is an index of the weights |
| Weighted.ChooseWeightedInterval | log_generator.py:66 | the chosen index is the one whose slice of `[0, total)` holds the scaled random number, and its weight is positive |
| Generator.AddressRange | log_generator.py:17 | the list has one address per number in the range, each the prefix followed by the number in decimal |
| Generator.AnomalyWeights | log_generator.py:50 | the template weights total 6, with running totals 3 and 5 |
| Generator.TemplateShares | log_generator.py:20-48 | the failed-login template is picked exactly for draws below 1/2, the file template for draws in [1/2, 5/6), the network template for the rest |
| Common.Strip | log_processor.py:187 | the result is the text without its leading and trailing whitespace: a slice of it, with only whitespace cut on each side and no whitespace at either end |
| Generator.NormalFields | log_generator.py:53-62 | a normal line's seven values: the formatted time, a level, event type, address and resource from their lists, SUCCESS, and the message built from the user and those values |
| Generator.AnomalyFields | log_generator.py:64-73 | an anomaly line's seven values: the formatted time and the chosen template's level, event type, status and message, with the source and target each its fixed value or an entry of its list |
| Generator.GenerateLine | log_generator.py:62 | with a four-digit year a generated line holds no line feed |
| Generator.NormalMessageQuiet | log_generator.py:61 | no normal message contains any of the processor's keywords |
| Generator.GeneratedLineParses | log_generator.py:53-73 | every generated line reads as CSV to exactly the seven fields it was built from |
| Generator.GeneratedLineAccepted | log_generator.py:53-73 | every generated line, as the processor strips it, is accepted with its fields and the generation time |
| Generator.NormalLineFeatures | log_generator.py:53-62 | a normal line's features are level 1 for INFO or 0 for DEBUG, the event type's rank, no failure, no keyword, and the time of generation |
| Generator.AnomalyLineFeatures | log_generator.py:64-73 | an anomaly line's level, event type, failure and keyword features are those of its template: (3,5,1,1), (4,1,0,1) or (2,2,0,0); its time features are the time of generation |
| Generator.Written | log_generator.py:87-101 | the loop writes `n` lines, and line `i` is the line generated from the clock and the draws of iteration `i`, followed by a line feed |
| Generator.RunGenerator | log_generator.py:78-101 | the truncated file ends up as the 50000 written lines in order, and reading it back line by line gives exactly those lines |
| Generator.WrittenAccepted | log_generator.py:87-101 | every line the generator writes is accepted by the processor |
| Generator.GeneratedFileIndexed | log_generator.py:78-101 | one monitoring cycle over a complete generated file, from offset 0, commits one document per generated line |

## Left out

- Index storage is not modelled: `AsyncWriter`, the schema and `full_log_compressed`. A document is the record of the fields handed to `add_document`. The zlib compression of the line is not part of this model.
- The `IsolationForest` fit and predict are not modelled. They are parameters: `fit` maps the training rows to a predictor, and a predictor answers inlier or outlier for each row. The batch `predict` is modelled as scoring each row on its own. The contamination, random seed and tree count only matter inside the forest.
- The file system is not modelled: opening, `FileNotFoundError`, directory creation and `os.path` handling. The file is a text snapshot at each monitoring read, and offsets count characters, not bytes.
- The monitor's infinite loop, `time.sleep`, `KeyboardInterrupt`, `writer.close()` and the catch-all error branch are not modelled. `Tailer.Follow` models a finite run of polls.
- `print` output is left out. The anomaly report is the list of reported lines.
- The clock and every random draw are parameters; `random.randint(0, 99999)` is a `Suffix` below 100000. `Weighted.Scale`: `random() * total` is an exact real, with no floating-point rounding.
- Line splitting only treats '\n' as the end of a line. Python's universal-newline translation of '\r' and "\r\n" is not modelled. The generator writes neither.
- `CsvReader.ParseLine`: reads only the first record of one line. A quoted field that spans several lines is not modelled, because the processor hands the reader one line at a time.
- `Timestamp.Parse`: accepts only the canonical form: four ASCII digits for the year, two ASCII digits each for month, day, hour, minute and second, and single separators. `strptime` also accepts other spellings. Month, day, hour, minute and second may have one digit, and the day may be written " 1". The format's space matches any run of whitespace. Any Unicode decimal digit counts as a digit, so "٢٠٢٤-01-01 00:00:00" parses. The model treats all of these as unparseable. The generator never writes them.
- `Timestamp.ParseFormat`: the round trips, and the lemmas that rest on them (`Generator.GeneratedLineAccepted`, `Generator.RunGenerator` and those after it), require a year from 1000 on. Below that, `strftime('%Y')` writes fewer than four digits. `Timestamp.Format`, `Timestamp.CompactStamp` and `Generator.GenerateLine` state their shape under the same condition.
- `Weighted.ChooseWeighted`: its contract only bounds the index. Which index it picks is stated by `Weighted.ChooseWeightedInterval`.
- The index writer is assumed to take documents across commits, and to commit again each cycle. In the Whoosh library `writer.commit()` finishes the writer, so later `add_document` calls may raise. The model does not capture that. `Tailer.Cycle` models the evident intent: every cycle's documents are written and committed.
- Constants the generator defines but never uses are left out: `LOG_LEVELS` and `STATUSES`. `LOG_INTERVAL_SECONDS` is also left out; it is only used to sleep.
- `Tailer.CollectTraining`: the file is assumed not to grow during the training pass; every `readline()` of the pass reads the same text. The processor reads while the generator may still be appending. A `readline()` that meets a half-written last line returns that piece, which trains if it already has seven fields, and the next `readline()` returns the rest as a line of its own. The model does not capture that.
- `ensure_whoosh_index` is not modelled. It only opens or recreates the index.
- The processor has no hold-back of a partial trailing line and no handling of log rotation, so the model has neither. `Tailer.PartialLineSplits` and `Tailer.Poll` state what the code does instead.
- `log_searcher.py` is not part of this model.

=== FILE: calendar.dfy ===
/** The proleptic Gregorian calendar as Python's `datetime` module computes it:
    day ordinals counted from 0001-01-01 (ordinal 1) and `weekday()` with Monday = 0. */
module Calendar {

  const MinYear := 1
  const MaxYear := 9999

  datatype DateTime = DateTime(year: int, month: int, day: int, hour: int, minute: int, second: int)

  predicate IsLeap(y: int) {
    y % 4 == 0 && (y % 100 != 0 || y % 400 == 0)
  }

  function DaysInMonth(y: int, m: int): (n: int)
    requires 1 <= m <= 12
    ensures 28 <= n <= 31
    ensures n == 29 <==> m == 2 && IsLeap(y)
  {
    if m == 2 then (if IsLeap(y) then 29 else 28)
    else if m == 4 || m == 6 || m == 9 || m == 11 then 30
    else 31
  }

  /** Days in the months of year `y` before month `m`. */
  function DaysBeforeMonth(y: int, m: int): int
    requires 1 <= m <= 12
  {
    [0, 31, 59, 90, 120, 151, 181, 212, 243, 273, 304, 334][m - 1]
      + (if m > 2 && IsLeap(y) then 1 else 0)
  }

  /** Days in the years before year `y`. */
  function DaysBeforeYear(y: int): int
    requires y >= 1
  {
    var p := y - 1;
    p * 365 + p / 4 - p / 100 + p / 400
  }

  predicate ValidDate(y: int, m: int, d: int) {
    MinYear <= y <= MaxYear && 1 <= m <= 12 && 1 <= d <= DaysInMonth(y, m)
  }

  /** The values `datetime.datetime(...)` accepts without raising. */
  predicate Valid(t: DateTime) {
    && ValidDate(t.year, t.month, t.day)
    && 0 <= t.hour < 24 && 0 <= t.minute < 60 && 0 <= t.second < 60
  }

  /** `date.toordinal()`. */
  function Ordinal(y: int, m: int, d: int): int
    requires ValidDate(y, m, d)
  {
    DaysBeforeYear(y) + DaysBeforeMonth(y, m) + d
  }

  /** `date.weekday()`: Monday is 0 and Sunday is 6. Day ordinal 1, 0001-01-01, is a
      Monday, so the weekday is the ordinal's distance from it, modulo 7. The ensures
      only restate that arithmetic; the evidence that it names real weekdays is
      `WeekdayAnchor` (known dates) and `WeekdayNextDay` (consecutive days). */
  function Weekday(y: int, m: int, d: int): (r: int)
    requires ValidDate(y, m, d)
    ensures 0 <= r < 7
    ensures Ordinal(y, m, d) % 7 == (r + 1) % 7
  {
    var o := Ordinal(y, m, d);
    ShiftMod7(o);
    (o + 6) % 7
  }

  lemma ShiftMod7(o: int)
    ensures o % 7 == ((o + 6) % 7 + 1) % 7
  {
  }

  /** The calendar day after a valid day, which is itself valid unless the year runs past 9999. */
  function NextDay(y: int, m: int, d: int): (r: (int, int, int))
    requires ValidDate(y, m, d)
    ensures y < MaxYear || m < 12 || d < 31 ==> ValidDate(r.0, r.1, r.2)
  {
    if d < DaysInMonth(y, m) then (y, m, d + 1)
    else if m < 12 then (y, m + 1, 1)
    else (y + 1, 1, 1)
  }

  /** A year contributes 365 days, plus one when it is a leap year. */
  lemma DaysBeforeNextYear(y: int)
    requires y >= 1
    ensures DaysBeforeYear(y + 1) == DaysBeforeYear(y) + 365 + (if IsLeap(y) then 1 else 0)
  {
    var p := y - 1;
    assert (p + 1) / 4 == p / 4 + (if y % 4 == 0 then 1 else 0);
    assert (p + 1) / 100 == p / 100 + (if y % 100 == 0 then 1 else 0);
    assert (p + 1) / 400 == p / 400 + (if y % 400 == 0 then 1 else 0);
  }

  /** Ordinals count days: the next calendar day has the next ordinal. */
  lemma OrdinalNextDay(y: int, m: int, d: int)
    requires ValidDate(y, m, d)
    requires y < MaxYear || m < 12 || d < 31
    ensures var n := NextDay(y, m, d); Ordinal(n.0, n.1, n.2) == Ordinal(y, m, d) + 1
  {
    if d == DaysInMonth(y, m) && m == 12 {
      DaysBeforeNextYear(y);
    }
  }

  /** Weekdays cycle: the day after a Sunday (6) is a Monday (0). */
  lemma WeekdayNextDay(y: int, m: int, d: int)
    requires ValidDate(y, m, d)
    requires y < MaxYear || m < 12 || d < 31
    ensures var n := NextDay(y, m, d); Weekday(n.0, n.1, n.2) == (Weekday(y, m, d) + 1) % 7
  {
    var n := NextDay(y, m, d);
    var o := Ordinal(y, m, d);
    OrdinalNextDay(y, m, d);
    assert Ordinal(n.0, n.1, n.2) + 6 == (o + 6) + 1;
    SuccessorMod7(o + 6);
  }

  lemma SuccessorMod7(a: int)
    ensures (a + 1) % 7 == (a % 7 + 1) % 7
  {
  }

  /** Two fixed points of the numbering: 0001-01-01 and 2024-01-01 were Mondays, and
      2024-01-07 a Sunday. */
  lemma WeekdayAnchor()
    ensures Weekday(1, 1, 1) == 0
    ensures Weekday(2024, 1, 1) == 0 && Weekday(2024, 1, 7) == 6
  {
    assert DaysBeforeYear(1) == 0;
    assert DaysBeforeYear(2024) == 738885;
  }
}

=== FILE: common.dfy ===
/** Small shared vocabulary: optional and failing results, decimal digits the way
    Python's `str(int)` writes them, Python's `str.strip()`, and joining fields with a
    separator character. */
module Common {

  datatype Option<+T> = None | Some(value: T)

  datatype Result<+R, +E> = Success(value: R) | Failure(error: E)

  // ---------------------------------------------------------------------------
  // Decimal digits
  // ---------------------------------------------------------------------------

  predicate IsDigit(c: char) {
    '0' <= c <= '9'
  }

  predicate AllDigits(s: string) {
    forall i :: 0 <= i < |s| ==> IsDigit(s[i])
  }

  function DigitValue(c: char): (d: nat)
    requires IsDigit(c)
    ensures d < 10
  {
    c as int - '0' as int
  }

  function DigitChar(d: nat): (c: char)
    requires d < 10
    ensures IsDigit(c) && DigitValue(c) == d
  {
    ('0' as int + d) as char
  }

  /** `str(n)` for a non-negative integer: shortest decimal, no leading zero. */
  function DecimalString(n: nat): (s: string)
    ensures 1 <= |s|
    ensures AllDigits(s)
    ensures |s| > 1 ==> s[0] != '0'
    ensures n < 10 <==> |s| == 1
  {
    if n < 10 then [DigitChar(n)] else DecimalString(n / 10) + [DigitChar(n % 10)]
  }

  /** The value of a string of decimal digits, most significant first. */
  function DecimalValue(s: string): nat
    requires AllDigits(s)
  {
    if |s| == 0 then 0 else DecimalValue(s[..|s| - 1]) * 10 + DigitValue(s[|s| - 1])
  }

  lemma {:induction false} DecimalRoundTrip(n: nat)
    ensures DecimalValue(DecimalString(n)) == n
  {
    var s := DecimalString(n);
    if n >= 10 {
      DecimalRoundTrip(n / 10);
      assert s[..|s| - 1] == DecimalString(n / 10);
    }
  }

  /** Distinct numbers never print alike, so a printed number identifies its value. */
  lemma DecimalStringInjective(m: nat, n: nat)
    ensures DecimalString(m) == DecimalString(n) <==> m == n
  {
    if DecimalString(m) == DecimalString(n) {
      DecimalRoundTrip(m);
      DecimalRoundTrip(n);
    }
  }

  lemma {:induction false} ShortDecimal(n: nat)
    requires n < 1000
    ensures |DecimalString(n)| <= 3
  {
    if n >= 10 {
      ShortDecimal(n / 10);
      assert n / 10 < 100;
      if n / 10 >= 10 {
        assert n / 100 < 10;
      }
    }
  }

  /** A four-digit number prints as its four digits. */
  lemma FourDigitDecimal(n: nat)
    requires 1000 <= n < 10000
    ensures DecimalString(n)
         == [DigitChar(n / 1000), DigitChar(n / 100 % 10), DigitChar(n / 10 % 10), DigitChar(n % 10)]
  {
    assert n / 10 / 10 == n / 100;
    assert n / 100 / 10 == n / 1000;
    assert 10 <= n / 100 < 100 && 1 <= n / 1000 < 10;
    assert DecimalString(n / 1000) == [DigitChar(n / 1000)];
    assert DecimalString(n / 100) == DecimalString(n / 1000) + [DigitChar(n / 100 % 10)];
    assert DecimalString(n / 10) == DecimalString(n / 100) + [DigitChar(n / 10 % 10)];
    assert DecimalString(n) == DecimalString(n / 10) + [DigitChar(n % 10)];
  }

  // ---------------------------------------------------------------------------
  // Python's str.strip()
  // ---------------------------------------------------------------------------

  /** The characters for which Python's `str.isspace()` holds. */
  predicate IsSpace(c: char) {
    || '\t' <= c <= '\r'
    || '\U{1C}' <= c <= ' '
    || c == '\U{85}' || c == '\U{A0}' || c == '\U{1680}'
    || '\U{2000}' <= c <= '\U{200A}'
    || c == '\U{2028}' || c == '\U{2029}' || c == '\U{202F}' || c == '\U{205F}'
    || c == '\U{3000}'
  }

  /** The number of whitespace characters `s` starts with. */
  function LeadingSpaces(s: string): (n: nat)
    ensures n <= |s|
    ensures forall k :: 0 <= k < n ==> IsSpace(s[k])
    ensures n == |s| || !IsSpace(s[n])
  {
    if |s| > 0 && IsSpace(s[0]) then
      var n := 1 + LeadingSpaces(s[1..]);
      assert forall k :: 1 <= k < n ==> s[k] == s[1..][k - 1];
      n
    else 0
  }

  /** Where `s` ends once the whitespace it ends with is dropped, never before `from`. */
  function TrimmedEnd(s: string, from: nat): (m: nat)
    requires from <= |s|
    ensures from <= m <= |s|
    ensures forall k :: m <= k < |s| ==> IsSpace(s[k])
    ensures m == from || !IsSpace(s[m - 1])
    decreases |s|
  {
    if |s| > from && IsSpace(s[|s| - 1]) then
      var m := TrimmedEnd(s[..|s| - 1], from);
      assert forall k :: m <= k < |s| - 1 ==> s[k] == s[..|s| - 1][k];
      m
    else |s|
  }

  /** `s.strip()`: the infix of `s` left after dropping the whitespace at both ends;
      what remains neither starts nor ends with whitespace. */
  function Strip(s: string): (r: string)
    ensures var i := LeadingSpaces(s);
            && i + |r| <= |s| && r == s[i..i + |r|]
            && (forall k :: 0 <= k < i ==> IsSpace(s[k]))
            && (forall k :: i + |r| <= k < |s| ==> IsSpace(s[k]))
    ensures |r| == 0 || (!IsSpace(r[0]) && !IsSpace(r[|r| - 1]))
  {
    var i := LeadingSpaces(s);
    s[i..TrimmedEnd(s, i)]
  }

  /** A line that neither starts nor ends with whitespace loses exactly its
      trailing newline to `strip()`. */
  lemma StripLineEnd(s: string)
    requires |s| > 0 && !IsSpace(s[0]) && !IsSpace(s[|s| - 1])
    ensures Strip(s + "\n") == s
  {
    var t := s + "\n";
    assert t[0] == s[0];
    assert LeadingSpaces(t) == 0;
    assert t[..|t| - 1] == s;
    assert TrimmedEnd(t, 0) == TrimmedEnd(s, 0) == |s|;
    assert t[0..|s|] == s;
  }

  /** Text with no whitespace at either end is left alone, so `strip()` is idempotent. */
  lemma StripTrimmed(s: string)
    requires |s| == 0 || (!IsSpace(s[0]) && !IsSpace(s[|s| - 1]))
    ensures Strip(s) == s
  {
    assert LeadingSpaces(s) == 0;
    assert s[0..|s|] == s;
  }

  // ---------------------------------------------------------------------------
  // Joining fields
  // ---------------------------------------------------------------------------

  /** `sep.join(parts)`. */
  function Join(parts: seq<string>, sep: char): string {
    if |parts| == 0 then ""
    else if |parts| == 1 then parts[0]
    else parts[0] + [sep] + Join(parts[1..], sep)
  }

  /** A joined text begins with the first character of its first part. */
  lemma JoinFirst(parts: seq<string>, sep: char)
    requires |parts| > 0 && |parts[0]| > 0
    ensures var j := Join(parts, sep); |j| > 0 && j[0] == parts[0][0]
  {
  }

  /** A joined text ends with the last character of its last part. */
  lemma {:induction false} JoinLast(parts: seq<string>, sep: char)
    requires |parts| > 0 && |parts[|parts| - 1]| > 0
    ensures var j, l := Join(parts, sep), parts[|parts| - 1]; |j| > 0 && j[|j| - 1] == l[|l| - 1]
  {
    if |parts| > 1 {
      assert parts[1..][|parts| - 2] == parts[|parts| - 1];
      JoinLast(parts[1..], sep);
    }
  }

  /** Concatenation of a sequence of strings. */
  function Concat(parts: seq<string>): string {
    if |parts| == 0 then "" else parts[0] + Concat(parts[1..])
  }

  lemma ConcatSnoc(parts: seq<string>, last: string)
    ensures Concat(parts + [last]) == Concat(parts) + last
  {
    ConcatAppend(parts, [last]);
    assert Concat([last]) == last + "";
  }

  lemma {:induction false} ConcatAppend(a: seq<string>, b: seq<string>)
    ensures Concat(a + b) == Concat(a) + Concat(b)
  {
    if |a| > 0 {
      assert (a + b)[1..] == a[1..] + b;
      ConcatAppend(a[1..], b);
    } else {
      assert a + b == b;
    }
  }

  /** A concatenation ends with the last character of its last part, when that part
      is not empty. */
  lemma {:induction false} ConcatLast(parts: seq<string>)
    requires |parts| > 0 && |parts[|parts| - 1]| > 0
    ensures var c, l := Concat(parts), parts[|parts| - 1];
            |c| > 0 && c[|c| - 1] == l[|l| - 1]
  {
    if |parts| > 1 {
      assert parts[1..][|parts| - 2] == parts[|parts| - 1];
      ConcatLast(parts[1..]);
    }
  }

  /** A sequence is its prefix followed by the rest. */
  lemma CutAt<T>(s: seq<T>, i: nat)
    requires i <= |s|
    ensures s[..i] + s[i..] == s
  {
  }

  /** The results of `f` on each element, concatenated in order. */
  function FlatMap<A, B>(f: A -> seq<B>, xs: seq<A>): seq<B> {
    if |xs| == 0 then [] else FlatMap(f, xs[..|xs| - 1]) + f(xs[|xs| - 1])
  }

  lemma {:induction false} FlatMapAppend<A, B>(f: A -> seq<B>, a: seq<A>, b: seq<A>)
    ensures FlatMap(f, a + b) == FlatMap(f, a) + FlatMap(f, b)
    decreases |b|
  {
    if |b| == 0 {
      assert a + b == a;
    } else {
      assert (a + b)[..|a + b| - 1] == a + b[..|b| - 1];
      FlatMapAppend(f, a, b[..|b| - 1]);
    }
  }
}

=== FILE: csv_reader.dfy ===
/** The record splitter behind `next(csv.reader(StringIO(line)))` with Python's default
    dialect: delimiter ',', quote character '"', a doubled quote inside a quoted field
    stands for one quote, no escape character, initial spaces kept, non-strict.
    The scanner below follows the states of CPython's `_csv` reader character by
    character; the line is one physical line (the tailer never hands over a '\n'). */
module CsvReader {
  import opened Common

  const Delimiter := ','
  const QuoteChar := '"'

  /** The default of `csv.field_size_limit()`. */
  const FieldSizeLimit := 131072

  datatype State = StartRecord | StartField | InField | InQuotedField | QuoteInQuotedField | EatCrNl

  /** Reader state: where it is, the fields finished so far, the field being read. */
  datatype Scanner = Scanner(state: State, fields: seq<string>, field: string)

  datatype CsvError =
    | NoRecord                // the input holds no line at all: `next` raises StopIteration
    | NewlineInUnquotedField  // characters follow an unquoted line break
    | FieldTooLarge           // a field grows past FieldSizeLimit

  predicate IsLineBreak(c: char) {
    c == '\n' || c == '\r'
  }

  const Start := Scanner(StartRecord, [], "")

  function Save(r: Scanner, next: State): Scanner {
    Scanner(next, r.fields + [r.field], "")
  }

  function Add(r: Scanner, c: char, next: State): Result<Scanner, CsvError> {
    if |r.field| >= FieldSizeLimit then Failure(FieldTooLarge)
    else Success(Scanner(next, r.fields, r.field + [c]))
  }

  function BeginField(r: Scanner, c: char): Result<Scanner, CsvError> {
    if IsLineBreak(c) then Success(Save(r, EatCrNl))
    else if c == QuoteChar then Success(r.(state := InQuotedField))
    else if c == Delimiter then Success(Save(r, StartField))
    else Add(r, c, InField)
  }

  /** No finished field and no field in progress is longer than the limit. */
  predicate Bounded(r: Scanner) {
    |r.field| <= FieldSizeLimit && forall i :: 0 <= i < |r.fields| ==> |r.fields[i]| <= FieldSizeLimit
  }

  /** One character of input: a field may be finished, none is ever taken back. */
  function Step(r: Scanner, c: char): (o: Result<Scanner, CsvError>)
    ensures o.Success? ==> o.value.fields == r.fields || o.value.fields == r.fields + [r.field]
    ensures o.Success? && Bounded(r) ==> Bounded(o.value)
    ensures o.Failure? ==> o.error != NoRecord
  {
    match r.state
    case StartRecord =>
      if IsLineBreak(c) then Success(r.(state := EatCrNl)) else BeginField(r, c)
    case StartField => BeginField(r, c)
    case InField =>
      if IsLineBreak(c) then Success(Save(r, EatCrNl))
      else if c == Delimiter then Success(Save(r, StartField))
      else Add(r, c, InField)
    case InQuotedField =>
      if c == QuoteChar then Success(r.(state := QuoteInQuotedField))
      else Add(r, c, InQuotedField)
    case QuoteInQuotedField =>
      if c == QuoteChar then Add(r, c, InQuotedField)
      else if c == Delimiter then Success(Save(r, StartField))
      else if IsLineBreak(c) then Success(Save(r, EatCrNl))
      else Add(r, c, InField)
    case EatCrNl =>
      if IsLineBreak(c) then Success(r) else Failure(NewlineInUnquotedField)
  }

  /** The characters of `s`, in order; stops at the first error. */
  function Run(r: Scanner, s: string): (o: Result<Scanner, CsvError>)
    ensures Bounded(r) && o.Success? ==> Bounded(o.value)
    ensures o.Failure? ==> o.error != NoRecord
    ensures o.Success? ==> |r.fields| <= |o.value.fields| && o.value.fields[..|r.fields|] == r.fields
    decreases |s|
  {
    if |s| == 0 then Success(r)
    else match Step(r, s[0])
      case Failure(e) => Failure(e)
      case Success(next) => Run(next, s[1..])
  }

  /** The end-of-line signal: a quoted field stays open, anything else ends the record. */
  function EndOfLine(r: Scanner): Scanner {
    match r.state
    case StartRecord => r
    case InQuotedField => r
    case EatCrNl => r.(state := StartRecord)
    case _ => Save(r, StartRecord)
  }

  /** The record once the input is exhausted; a non-strict reader keeps an unterminated
      quoted field as it stands. */
  function Finish(r: Scanner): (record: seq<string>)
    ensures Bounded(r) ==> forall i :: 0 <= i < |record| ==> |record[i]| <= FieldSizeLimit
  {
    var e := EndOfLine(r);
    if e.state == StartRecord then e.fields else e.fields + [e.field]
  }

  /** `next(csv.reader(StringIO(line)))`; every error it raises is a Failure. */
  function ParseLine(line: string): (r: Result<seq<string>, CsvError>)
    ensures r == Failure(NoRecord) <==> |line| == 0
    ensures r.Success? ==> forall i :: 0 <= i < |r.value| ==> |r.value[i]| <= FieldSizeLimit
  {
    if |line| == 0 then Failure(NoRecord)
    else match Run(Start, line)
      case Failure(e) => Failure(e)
      case Success(r) => Success(Finish(r))
  }

  // ---------------------------------------------------------------------------
  // Running over a concatenation
  // ---------------------------------------------------------------------------

  function Then(o: Result<Scanner, CsvError>, s: string): Result<Scanner, CsvError> {
    match o
    case Failure(e) => Failure(e)
    case Success(r) => Run(r, s)
  }

  /** Reading one more character in front of the rest. */
  lemma RunCons(r: Scanner, c: char, s: string)
    ensures Run(r, [c] + s) == Then(Step(r, c), s)
  {
    assert ([c] + s)[0] == c;
    assert ([c] + s)[1..] == s;
  }

  lemma {:induction false} RunAppend(r: Scanner, a: string, b: string)
    ensures Run(r, a + b) == Then(Run(r, a), b)
    decreases |a|
  {
    if |a| > 0 {
      assert (a + b)[0] == a[0];
      assert (a + b)[1..] == a[1..] + b;
      match Step(r, a[0])
      case Failure(e) =>
      case Success(next) => RunAppend(next, a[1..], b);
    } else {
      assert a + b == b;
    }
  }

  // ---------------------------------------------------------------------------
  // Unquoted fields
  // ---------------------------------------------------------------------------

  /** A field that needs no quoting: no delimiter, quote or line break in it. */
  predicate Plain(f: string) {
    |f| <= FieldSizeLimit
    && forall i :: 0 <= i < |f| ==> f[i] != Delimiter && f[i] != QuoteChar && !IsLineBreak(f[i])
  }

  lemma {:induction false} InFieldRun(fields: seq<string>, g: string, f: string)
    requires Plain(f) && |g| + |f| <= FieldSizeLimit
    ensures Run(Scanner(InField, fields, g), f) == Success(Scanner(InField, fields, g + f))
    decreases |f|
  {
    if |f| > 0 {
      var r := Scanner(InField, fields, g);
      var next := Scanner(InField, fields, g + [f[0]]);
      assert f[0] != Delimiter && f[0] != QuoteChar && !IsLineBreak(f[0]);
      assert Step(r, f[0]) == Success(next);
      assert Plain(f[1..]);
      RunCons(r, f[0], f[1..]);
      assert [f[0]] + f[1..] == f;
      InFieldRun(fields, g + [f[0]], f[1..]);
      assert g + [f[0]] + f[1..] == g + f;
    } else {
      assert g + f == g;
    }
  }

  /** A plain, non-empty field read from the start of a field leaves the reader inside it. */
  lemma PlainFieldRun(r: Scanner, f: string)
    requires r.state == StartRecord || r.state == StartField
    requires r.field == "" && Plain(f) && |f| > 0
    ensures Run(r, f) == Success(Scanner(InField, r.fields, f))
  {
    assert f[0] != Delimiter && f[0] != QuoteChar && !IsLineBreak(f[0]);
    assert r.field + [f[0]] == [f[0]];
    assert Step(r, f[0]) == Success(Scanner(InField, r.fields, [f[0]]));
    assert Plain(f[1..]);
    RunCons(r, f[0], f[1..]);
    assert [f[0]] + f[1..] == f;
    InFieldRun(r.fields, [f[0]], f[1..]);
  }

  /** A plain field and the delimiter after it: the field is finished as written. */
  lemma PlainFieldThenDelimiter(r: Scanner, f: string)
    requires r.state == StartRecord || r.state == StartField
    requires r.field == "" && Plain(f)
    ensures Run(r, f + [Delimiter]) == Success(Scanner(StartField, r.fields + [f], ""))
  {
    assert [Delimiter] + "" == [Delimiter];
    if |f| > 0 {
      var inside := Scanner(InField, r.fields, f);
      RunAppend(r, f, [Delimiter]);
      PlainFieldRun(r, f);
      RunCons(inside, Delimiter, "");
      assert Step(inside, Delimiter) == Success(Save(inside, StartField));
    } else {
      assert f + [Delimiter] == [Delimiter];
      RunCons(r, Delimiter, "");
      assert Step(r, Delimiter) == Success(Save(r, StartField));
    }
  }

  /** A plain field, a delimiter, then anything: the field is finished and reading goes on. */
  lemma PlainFieldBefore(r: Scanner, f: string, rest: string)
    requires r.state == StartRecord || r.state == StartField
    requires r.field == "" && Plain(f)
    ensures Run(r, f + [Delimiter] + rest) == Run(Scanner(StartField, r.fields + [f], ""), rest)
  {
    RunAppend(r, f + [Delimiter], rest);
    PlainFieldThenDelimiter(r, f);
  }

  /** The last plain field of a line: it is saved when the line ends. */
  lemma PlainLastField(r: Scanner, f: string)
    requires r.state == StartRecord || r.state == StartField
    requires r.field == "" && Plain(f) && (r.state == StartField || f != "")
    ensures Run(r, f).Success? && Finish(Run(r, f).value) == r.fields + [f]
  {
    if |f| > 0 {
      PlainFieldRun(r, f);
    }
  }

  lemma {:induction false} PlainJoinRun(st: State, fields: seq<string>, fs: seq<string>)
    requires st == StartRecord || st == StartField
    requires |fs| >= 1 && forall i :: 0 <= i < |fs| ==> Plain(fs[i])
    requires st == StartField || |fs| >= 2 || fs[0] != ""
    ensures Run(Scanner(st, fields, ""), Join(fs, Delimiter)).Success?
    ensures Finish(Run(Scanner(st, fields, ""), Join(fs, Delimiter)).value) == fields + fs
    decreases |fs|
  {
    var r := Scanner(st, fields, "");
    if |fs| == 1 {
      assert Join(fs, Delimiter) == fs[0];
      PlainLastField(r, fs[0]);
      assert fs == [fs[0]];
    } else {
      assert Join(fs, Delimiter) == fs[0] + [Delimiter] + Join(fs[1..], Delimiter);
      PlainFieldBefore(r, fs[0], Join(fs[1..], Delimiter));
      PlainJoinRun(StartField, fields + [fs[0]], fs[1..]);
      assert fields + [fs[0]] + fs[1..] == fields + fs;
    }
  }

  lemma JoinNotEmpty(fs: seq<string>)
    requires |fs| >= 2 || (|fs| == 1 && fs[0] != "")
    ensures |Join(fs, Delimiter)| > 0
  {
    if |fs| >= 2 {
      assert Join(fs, Delimiter) == fs[0] + [Delimiter] + Join(fs[1..], Delimiter);
    }
  }

  /** Fields that need no quoting, joined with commas, read back as the same fields. */
  lemma PlainRoundTrip(fs: seq<string>)
    requires |fs| >= 1 && forall i :: 0 <= i < |fs| ==> Plain(fs[i])
    requires |fs| >= 2 || fs[0] != ""
    ensures ParseLine(Join(fs, Delimiter)) == Success(fs)
  {
    PlainJoinRun(StartRecord, [], fs);
    JoinNotEmpty(fs);
    assert [] + fs == fs;
  }

  // ---------------------------------------------------------------------------
  // A line without quotes is split at every comma
  // ---------------------------------------------------------------------------

  /** `s.split(',')`. */
  function Split(s: string): (r: seq<string>)
    ensures |r| >= 1
    ensures forall i, j :: 0 <= i < |r| && 0 <= j < |r[i]| ==> r[i][j] in s && r[i][j] != Delimiter
  {
    if |s| == 0 then [""]
    else
      var rest := Split(s[1..]);
      if s[0] == Delimiter then [""] + rest else [[s[0]] + rest[0]] + rest[1..]
  }

  lemma JoinConsChar(c: char, f: string, t: seq<string>)
    ensures Join([[c] + f] + t, Delimiter) == [c] + Join([f] + t, Delimiter)
  {
    if |t| > 0 {
      assert ([[c] + f] + t)[1..] == t;
      assert ([f] + t)[1..] == t;
    }
  }

  lemma {:induction false} JoinSplit(s: string)
    ensures Join(Split(s), Delimiter) == s
  {
    if |s| > 0 {
      var rest := Split(s[1..]);
      JoinSplit(s[1..]);
      if s[0] == Delimiter {
        assert ([""] + rest)[1..] == rest;
      } else {
        JoinConsChar(s[0], rest[0], rest[1..]);
        assert [rest[0]] + rest[1..] == rest;
      }
      assert s == [s[0]] + s[1..];
    }
  }

  /** A non-empty line with no quote and no line break, whose comma-separated pieces are
      within the size limit, reads as exactly its comma-separated pieces. */
  lemma UnquotedLineIsSplit(s: string)
    requires |s| > 0
    requires forall i :: 0 <= i < |s| ==> s[i] != QuoteChar && !IsLineBreak(s[i])
    requires forall i :: 0 <= i < |Split(s)| ==> |Split(s)[i]| <= FieldSizeLimit
    ensures ParseLine(s) == Success(Split(s))
  {
    var fs := Split(s);
    JoinSplit(s);
    forall i | 0 <= i < |fs|
      ensures Plain(fs[i])
    {
      forall j | 0 <= j < |fs[i]|
        ensures fs[i][j] != QuoteChar && !IsLineBreak(fs[i][j])
      {
        assert fs[i][j] in s;
      }
    }
    if |fs| == 1 {
      assert fs[0] == Join(fs, Delimiter);
    }
    PlainRoundTrip(fs);
  }

  // ---------------------------------------------------------------------------
  // Quoted fields
  // ---------------------------------------------------------------------------

  /** The body of a quoted field: every quote doubled. */
  function Escape(f: string): (r: string)
    ensures |r| >= |f|
  {
    if |f| == 0 then ""
    else (if f[0] == QuoteChar then [QuoteChar, QuoteChar] else [f[0]]) + Escape(f[1..])
  }

  function QuoteField(f: string): string {
    [QuoteChar] + Escape(f) + [QuoteChar]
  }

  /** `csv.writer(..., quoting=csv.QUOTE_ALL)` for one row, without the line terminator. */
  function WriteQuoted(fs: seq<string>): string
    requires |fs| >= 1
  {
    if |fs| == 1 then QuoteField(fs[0]) else QuoteField(fs[0]) + [Delimiter] + WriteQuoted(fs[1..])
  }

  /** Inside a quoted field a doubled quote stands for one quote. */
  lemma DoubledQuoteRun(fields: seq<string>, g: string)
    requires |g| < FieldSizeLimit
    ensures Run(Scanner(InQuotedField, fields, g), [QuoteChar, QuoteChar])
         == Success(Scanner(InQuotedField, fields, g + [QuoteChar]))
  {
    var r := Scanner(InQuotedField, fields, g);
    var closing := r.(state := QuoteInQuotedField);
    assert [QuoteChar, QuoteChar] == [QuoteChar] + [QuoteChar];
    assert [QuoteChar] == [QuoteChar] + "";
    RunCons(r, QuoteChar, [QuoteChar]);
    RunCons(closing, QuoteChar, "");
  }

  lemma QuotedCharRun(fields: seq<string>, g: string, c: char)
    requires |g| < FieldSizeLimit && c != QuoteChar
    ensures Run(Scanner(InQuotedField, fields, g), [c]) == Success(Scanner(InQuotedField, fields, g + [c]))
  {
    assert [c] == [c] + "";
    RunCons(Scanner(InQuotedField, fields, g), c, "");
  }

  lemma {:induction false} EscapeRun(fields: seq<string>, g: string, f: string)
    requires |g| + |f| <= FieldSizeLimit
    ensures Run(Scanner(InQuotedField, fields, g), Escape(f)) == Success(Scanner(InQuotedField, fields, g + f))
    decreases |f|
  {
    var r := Scanner(InQuotedField, fields, g);
    if |f| > 0 {
      var head: string := if f[0] == QuoteChar then [QuoteChar, QuoteChar] else [f[0]];
      assert Escape(f) == head + Escape(f[1..]);
      RunAppend(r, head, Escape(f[1..]));
      if f[0] == QuoteChar {
        DoubledQuoteRun(fields, g);
      } else {
        QuotedCharRun(fields, g, f[0]);
      }
      EscapeRun(fields, g + [f[0]], f[1..]);
      assert g + [f[0]] + f[1..] == g + f;
    } else {
      assert g + f == g;
    }
  }

  /** A whole quoted field read from the start of a field: the reader stands just after
      its closing quote with the unescaped text as the field. */
  lemma QuotedFieldRun(r: Scanner, f: string)
    requires r.state == StartRecord || r.state == StartField
    requires r.field == "" && |f| <= FieldSizeLimit
    ensures Run(r, QuoteField(f)) == Success(Scanner(QuoteInQuotedField, r.fields, f))
  {
    var open := r.(state := InQuotedField);
    var inside := Scanner(InQuotedField, r.fields, f);
    assert [QuoteChar] == [QuoteChar] + "";
    RunCons(r, QuoteChar, "");
    RunAppend(r, [QuoteChar], Escape(f));
    EscapeRun(r.fields, "", f);
    assert "" + f == f;
    RunAppend(r, [QuoteChar] + Escape(f), [QuoteChar]);
    RunCons(inside, QuoteChar, "");
  }

  /** A closed quoted field followed by a comma saves the field and starts the next. */
  lemma QuotedFieldThenDelimiter(r: Scanner, f: string, rest: string)
    requires r.state == StartRecord || r.state == StartField
    requires r.field == "" && |f| <= FieldSizeLimit
    ensures Run(r, QuoteField(f) + [Delimiter] + rest)
         == Run(Scanner(StartField, r.fields + [f], ""), rest)
  {
    var closed := Scanner(QuoteInQuotedField, r.fields, f);
    QuotedFieldRun(r, f);
    RunAppend(r, QuoteField(f), [Delimiter] + rest);
    assert QuoteField(f) + [Delimiter] + rest == QuoteField(f) + ([Delimiter] + rest);
    RunCons(closed, Delimiter, rest);
  }

  lemma {:induction false} QuotedJoinRun(st: State, fields: seq<string>, fs: seq<string>)
    requires st == StartRecord || st == StartField
    requires |fs| >= 1 && forall i :: 0 <= i < |fs| ==> |fs[i]| <= FieldSizeLimit
    ensures Run(Scanner(st, fields, ""), WriteQuoted(fs)).Success?
    ensures Finish(Run(Scanner(st, fields, ""), WriteQuoted(fs)).value) == fields + fs
    decreases |fs|
  {
    var r := Scanner(st, fields, "");
    if |fs| > 1 {
      QuotedFieldThenDelimiter(r, fs[0], WriteQuoted(fs[1..]));
      QuotedJoinRun(StartField, fields + [fs[0]], fs[1..]);
      assert fields + [fs[0]] + fs[1..] == fields + fs;
    } else {
      QuotedFieldRun(r, fs[0]);
      assert fs == [fs[0]];
    }
  }

  /** Any fields at all (commas, quotes and line breaks included), written fully quoted,
      read back as the same fields. */
  lemma QuotedRoundTrip(fs: seq<string>)
    requires |fs| >= 1 && forall i :: 0 <= i < |fs| ==> |fs[i]| <= FieldSizeLimit
    ensures ParseLine(WriteQuoted(fs)) == Success(fs)
  {
    QuotedJoinRun(StartRecord, [], fs);
    assert WriteQuoted(fs)[0] == QuoteChar;
    assert [] + fs == fs;
  }
}

=== FILE: features.dfy ===
/** `extract_features`: the six numbers the anomaly detector sees for one log record
    `timestamp,level,event_type,source_ip,target_resource,status,message`. */
module Features {
  import opened Common
  import opened Calendar
  import opened Timestamp

  /** Positions of the seven comma-separated fields of a log line. */
  const TimestampField := 0
  const LevelField := 1
  const EventTypeField := 2
  const SourceIpField := 3
  const TargetField := 4
  const StatusField := 5
  const MessageField := 6
  const FieldCount := 7

  datatype FeatureVector = FeatureVector(
    level: int, eventType: int, failure: int, suspicious: int, minuteOfDay: int, dayOfWeek: int)

  // ---------------------------------------------------------------------------
  // Lookup tables
  // ---------------------------------------------------------------------------

  const LevelMap: map<string, int> :=
    map["DEBUG" := 0, "INFO" := 1, "WARN" := 2, "WARNING" := 2, "ERROR" := 3,
        "CRITICAL" := 4, "FATAL" := 4]

  /** The level names of each severity rank; WARN/WARNING and CRITICAL/FATAL are synonyms. */
  const LevelNames: seq<set<string>> :=
    [{"DEBUG"}, {"INFO"}, {"WARN", "WARNING"}, {"ERROR"}, {"CRITICAL", "FATAL"}]

  /** `LEVEL_MAP.get(level, -1)`: the severity rank, -1 for a name no rank lists. */
  function LevelRank(level: string): (r: int)
    ensures -1 <= r < |LevelNames|
    ensures r >= 0 ==> level in LevelNames[r]
    ensures r == -1 <==> forall k :: 0 <= k < |LevelNames| ==> level !in LevelNames[k]
  {
    if level in LevelMap then LevelMap[level] else -1
  }

  const EventTypeMap: map<string, int> :=
    map["LOGIN" := 0, "FILE_ACCESS" := 1, "NETWORK_CONN" := 2, "PROCESS_START" := 3,
        "AUTH_ATTEMPT" := 4, "LOGIN_FAILED" := 5, "DATA_EXFIL" := 6, "PROCESS_END" := 7,
        "DB_CONNECTION_FAILED" := 8, "SERVICE_RESTART" := 9, "FILE_ACCESS_DENIED" := 10,
        "NETWORK_ISSUE" := 11]

  /** The event type names in code order. */
  const EventTypeNames: seq<string> :=
    ["LOGIN", "FILE_ACCESS", "NETWORK_CONN", "PROCESS_START", "AUTH_ATTEMPT", "LOGIN_FAILED",
     "DATA_EXFIL", "PROCESS_END", "DB_CONNECTION_FAILED", "SERVICE_RESTART",
     "FILE_ACCESS_DENIED", "NETWORK_ISSUE"]

  /** `EVENT_TYPE_MAP.get(event_type, -1)`: the position of the name in the code list,
      -1 for a name that is not listed. */
  function EventTypeRank(eventType: string): (r: int)
    ensures -1 <= r < |EventTypeNames|
    ensures r >= 0 ==> EventTypeNames[r] == eventType
    ensures r == -1 <==> eventType !in EventTypeNames
  {
    if eventType in EventTypeMap then EventTypeMap[eventType] else -1
  }

  // ---------------------------------------------------------------------------
  // The failure flag: status.upper() == "FAILURE"
  // ---------------------------------------------------------------------------

  const FailureStatus := "FAILURE"

  /** Character `c` upper-cases to the ASCII capital `u`. Besides `u` itself and its
      lower-case letter, only dotless i (U+0131) upper-cases to I and long s (U+017F) to S. */
  predicate UpperIs(c: char, u: char) {
    || c == u
    || ('A' <= u <= 'Z' && c as int == u as int + 32)
    || (u == 'I' && c == '\U{131}')
    || (u == 'S' && c == '\U{17F}')
  }

  /** `s.upper() == w` for a word `w` of ASCII capitals. No character upper-cases to two
      or more characters that all occur, in order, inside such a word as short as
      FAILURE, so the comparison goes character by character. */
  predicate SpellsUpper(s: string, w: string) {
    |s| == |w| && forall i :: 0 <= i < |s| ==> UpperIs(s[i], w[i])
  }

  /** `c.upper()` where the result is an ASCII capital; any other character stands for
      itself, which decides no comparison with a word of ASCII capitals differently. */
  function UpperChar(c: char): char {
    if 'a' <= c <= 'z' then (c as int - 32) as char
    else if c == '\U{131}' then 'I'
    else if c == '\U{17F}' then 'S'
    else c
  }

  function Upper(s: string): (r: string)
    ensures |r| == |s|
    ensures forall i :: 0 <= i < |s| ==> r[i] == UpperChar(s[i])
  {
    if |s| == 0 then "" else [UpperChar(s[0])] + Upper(s[1..])
  }

  lemma UpperCharIs(c: char, u: char)
    requires 'A' <= u <= 'Z'
    ensures UpperChar(c) == u <==> UpperIs(c, u)
  {
  }

  /** `1 if status.upper() == "FAILURE" else 0`. */
  function FailureFlag(status: string): (r: int)
    ensures r == 0 || r == 1
    ensures r == 1 <==> SpellsUpper(status, FailureStatus)
  {
    var u := Upper(status);
    if u == FailureStatus then
      assert SpellsUpper(status, FailureStatus) by {
        forall i | 0 <= i < |status| ensures UpperIs(status[i], FailureStatus[i]) {
          UpperCharIs(status[i], FailureStatus[i]);
        }
      }
      1
    else
      0
  }

  // ---------------------------------------------------------------------------
  // The keyword flag:
  // re.search(r'unusual|unauthorized|failed attempt|denied|failed to connect', m, re.I)
  // ---------------------------------------------------------------------------

  const Keywords: seq<string> := ["unusual", "unauthorized", "failed attempt", "denied", "failed to connect"]

  /** A pattern character: a lower-case ASCII letter or a space. */
  predicate PatternChar(p: char) {
    'a' <= p <= 'z' || p == ' '
  }

  /** Under `re.IGNORECASE` the text character `c` matches the pattern character `p`:
      the letter in either case, and for i also capital I with dot (U+0130) and dotless
      i (U+0131), for s also long s (U+017F). */
  predicate FoldEq(c: char, p: char) {
    || c == p
    || ('a' <= p <= 'z' && c as int == p as int - 32)
    || (p == 'i' && (c == '\U{130}' || c == '\U{131}'))
    || (p == 's' && c == '\U{17F}')
  }

  /** The word `w` matches the text `s` at position `i`, ignoring case. */
  predicate MatchesAt(s: string, i: int, w: string) {
    0 <= i && i + |w| <= |s| && forall j :: 0 <= j < |w| ==> FoldEq(s[i + j], w[j])
  }

  /** Some keyword occurs somewhere in `s`, ignoring case. */
  predicate MentionsKeyword(s: string) {
    exists k, i :: 0 <= k < |Keywords| && 0 <= i <= |s| && MatchesAt(s, i, Keywords[k])
  }

  /** The case fold the matcher compares with: every character matching a pattern
      character folds to it. */
  function Fold(c: char): char {
    if 'A' <= c <= 'Z' then (c as int + 32) as char
    else if c == '\U{130}' || c == '\U{131}' then 'i'
    else if c == '\U{17F}' then 's'
    else c
  }

  lemma FoldIs(c: char, p: char)
    requires PatternChar(p)
    ensures Fold(c) == p <==> FoldEq(c, p)
  {
  }

  lemma KeywordsArePatterns()
    ensures forall k, j :: 0 <= k < |Keywords| && 0 <= j < |Keywords[k]| ==> PatternChar(Keywords[k][j])
    ensures forall k :: 0 <= k < |Keywords| ==> |Keywords[k]| > 0
  {
  }

  /** The folded text at `i` begins with the word `w`. */
  function FoldedPrefix(s: string, i: nat, w: string): (r: bool)
    requires i <= |s|
    requires forall j :: 0 <= j < |w| ==> PatternChar(w[j])
    ensures r <==> MatchesAt(s, i, w)
    decreases |w|
  {
    if |w| == 0 then true
    else if i == |s| then false
    else
      var r := Fold(s[i]) == w[0] && FoldedPrefix(s, i + 1, w[1..]);
      FoldIs(s[i], w[0]);
      assert MatchesAt(s, i, w) <==> FoldEq(s[i], w[0]) && MatchesAt(s, i + 1, w[1..]) by {
        if FoldEq(s[i], w[0]) && MatchesAt(s, i + 1, w[1..]) {
          forall j | 0 <= j < |w| ensures FoldEq(s[i + j], w[j]) {
            if j > 0 {
              assert FoldEq(s[i + 1 + (j - 1)], w[1..][j - 1]);
            }
          }
        }
        if MatchesAt(s, i, w) {
          forall j | 0 <= j < |w| - 1 ensures FoldEq(s[i + 1 + j], w[1..][j]) {
            assert FoldEq(s[i + (j + 1)], w[j + 1]);
          }
        }
      }
      r
  }

  /** Some keyword from the `k`-th on matches at position `i`. */
  function KeywordFrom(s: string, i: nat, k: nat): (r: bool)
    requires i <= |s| && k <= |Keywords|
    ensures r <==> exists q :: k <= q < |Keywords| && MatchesAt(s, i, Keywords[q])
    decreases |Keywords| - k
  {
    if k == |Keywords| then false
    else
      KeywordsArePatterns();
      FoldedPrefix(s, i, Keywords[k]) || KeywordFrom(s, i, k + 1)
  }

  /** The regular expression search, leftmost position first, from position `i` on. */
  function SearchFrom(s: string, i: nat): (r: bool)
    requires i <= |s|
    ensures r <==> exists k, j :: 0 <= k < |Keywords| && i <= j <= |s| && MatchesAt(s, j, Keywords[k])
    decreases |s| - i
  {
    KeywordsArePatterns();
    if i == |s| then false
    else
      var r := KeywordFrom(s, i, 0) || SearchFrom(s, i + 1);
      assert r ==> exists k, j :: 0 <= k < |Keywords| && i <= j <= |s| && MatchesAt(s, j, Keywords[k]);
      assert (exists k, j :: 0 <= k < |Keywords| && i <= j <= |s| && MatchesAt(s, j, Keywords[k])) ==> r by {
        if exists k, j :: 0 <= k < |Keywords| && i <= j <= |s| && MatchesAt(s, j, Keywords[k]) {
          var k, j :| 0 <= k < |Keywords| && i <= j <= |s| && MatchesAt(s, j, Keywords[k]);
          if j == i {
            assert KeywordFrom(s, i, 0);
          } else {
            assert SearchFrom(s, i + 1);
          }
        }
      }
      r
  }

  /** `1 if re.search(...) else 0`: 1 exactly when some keyword occurs in the message,
      ignoring case. */
  function SuspiciousFlag(message: string): (r: int)
    ensures r == 0 || r == 1
    ensures r == 1 <==> MentionsKeyword(message)
  {
    if SearchFrom(message, 0) then 1 else 0
  }

  // ---------------------------------------------------------------------------
  // Time of day and day of week
  // ---------------------------------------------------------------------------

  const MinutesPerDay := 24 * 60

  /** `(hour * 60 + minute, weekday())` of the parsed timestamp, `(0, -1)` when
      `strptime` raises ValueError. */
  function TimeFeatures(timestamp: string): (r: (int, int))
    ensures Parse(timestamp).None? ==> r == (0, -1)
    ensures Parse(timestamp).Some? ==>
              var t := Parse(timestamp).value;
              && 0 <= r.0 < MinutesPerDay && r.0 / 60 == t.hour && r.0 % 60 == t.minute
              && 0 <= r.1 < 7 && r.1 == Weekday(t.year, t.month, t.day)
    ensures r.1 == -1 <==> Parse(timestamp).None?
  {
    match Parse(timestamp)
    case None => (0, -1)
    case Some(t) => (t.hour * 60 + t.minute, Weekday(t.year, t.month, t.day))
  }

  // ---------------------------------------------------------------------------
  // extract_features
  // ---------------------------------------------------------------------------

  /** The feature vector of the fields of one record. It is total: unknown names rank -1
      and a bad timestamp gives minute 0 and day -1, nothing raises. */
  function ExtractFeatures(parts: seq<string>): (f: FeatureVector)
    requires |parts| >= FieldCount
    ensures -1 <= f.level <= 4 && -1 <= f.eventType <= 11
    ensures f.level >= 0 ==> parts[LevelField] in LevelNames[f.level]
    ensures f.level == -1 <==> forall k :: 0 <= k < |LevelNames| ==> parts[LevelField] !in LevelNames[k]
    ensures f.eventType >= 0 ==> EventTypeNames[f.eventType] == parts[EventTypeField]
    ensures f.eventType == -1 <==> parts[EventTypeField] !in EventTypeNames
    ensures f.failure == 1 <==> SpellsUpper(parts[StatusField], FailureStatus)
    ensures f.suspicious == 1 <==> MentionsKeyword(parts[MessageField])
    ensures f.failure in {0, 1} && f.suspicious in {0, 1}
    ensures 0 <= f.minuteOfDay < MinutesPerDay && -1 <= f.dayOfWeek < 7
    ensures f.dayOfWeek == -1 <==> Parse(parts[TimestampField]).None?
    ensures f.dayOfWeek == -1 ==> f.minuteOfDay == 0
    ensures Parse(parts[TimestampField]).Some? ==>
              var t := Parse(parts[TimestampField]).value;
              f.minuteOfDay == t.hour * 60 + t.minute && f.dayOfWeek == Weekday(t.year, t.month, t.day)
  {
    var time := TimeFeatures(parts[TimestampField]);
    FeatureVector(
      LevelRank(parts[LevelField]),
      EventTypeRank(parts[EventTypeField]),
      FailureFlag(parts[StatusField]),
      SuspiciousFlag(parts[MessageField]),
      time.0,
      time.1)
  }
}

=== FILE: generator.dfy ===
/** `log_generator.py`: one log line per call, normal or anomalous, and the loop that
    writes a fixed number of them. The clock and every random draw are parameters: a
    draw is the number `random.random()` returned, or the index `random.choice`
    picked from its list. */
module Generator {
  import opened Common
  import opened Calendar
  import opened Timestamp
  import opened CsvReader
  import opened Features
  import opened Pipeline
  import opened Tailer
  import opened Weighted

  const AnomalyProbability: real := 0.05
  const NumLogsToGenerate := 50000

  const EventTypes: seq<string> := ["LOGIN", "FILE_ACCESS", "NETWORK_CONN", "PROCESS_START", "AUTH_ATTEMPT"]
  const Usernames: seq<string> := ["UserA", "UserB", "AdminX", "GuestY", "ServiceZ"]
  const Resources: seq<string> :=
    ["/var/log/syslog", "/etc/passwd", "/data/reports/sales.csv", "192.168.1.1:80", "public_s3_bucket"]

  /** The levels and the status a normal line draws from. */
  const NormalLevels: seq<string> := ["INFO", "DEBUG"]
  const NormalStatus := "SUCCESS"

  /** `[f"{prefix}{i}" for i in range(lo, hi)]`. */
  function AddressRange(prefix: string, lo: nat, hi: nat): (r: seq<string>)
    requires lo <= hi
    ensures |r| == hi - lo
    ensures forall i :: 0 <= i < |r| ==> r[i] == prefix + DecimalString(lo + i)
  {
    seq(hi - lo, i requires 0 <= i => prefix + DecimalString(lo + i))
  }

  /** `NORMAL_IPS`: 192.168.1.10 to 192.168.1.49, then 10.0.0.100 to 10.0.0.119. */
  const NormalIps: seq<string> := AddressRange("192.168.1.", 10, 50) + AddressRange("10.0.0.", 100, 120)
  const NormalIpCount := 60
  const MaliciousIps: seq<string> := ["203.0.113.1", "172.16.0.250", "91.198.174.192"]

  // ---------------------------------------------------------------------------
  // Anomaly templates
  // ---------------------------------------------------------------------------

  /** A template field: a fixed value, or a lambda that picks from a list. */
  datatype Field = Fixed(value: string) | Drawn(pool: seq<string>)

  datatype Template = Template(
    level: string, eventType: string, sourceIp: Field, target: Field, status: string,
    message: string, weight: nat)

  /** The fixed messages and target, spelt word by word so that each word can be
      reasoned about on its own. */
  const LoginMessage := "Multiple " + "failed " + "login " + "attempts " + "from " + "unusual " + "IP."
  const FileMessage := "Unauthorized " + "access " + "attempt " + "to " + "sensitive " + "system " + "file."
  const NetworkMessage :=
    "Outbound " + "connection " + "to " + "known " + "suspicious " + "domain " + "timed " + "out."
  const ExternalTarget := "external." + "malicious." + "com:443"

  /** `ANOMALIES`, in order. */
  const Anomalies: seq<Template> := [
    Template("ERROR", "LOGIN_FAILED", Drawn(MaliciousIps), Drawn(Usernames), "FAILURE", LoginMessage, 3),
    Template("CRITICAL", "FILE_ACCESS", Drawn(NormalIps[..5]), Fixed("/etc/passwd"), "DENIED", FileMessage, 2),
    Template("WARN", "NETWORK_CONN", Drawn(NormalIps), Fixed(ExternalTarget), "TIMEOUT",
             NetworkMessage, 1)]

  /** `ANOMALY_WEIGHTS`. */
  function Weights(ts: seq<Template>): (ws: seq<nat>)
    ensures |ws| == |ts| && forall i :: 0 <= i < |ts| ==> ws[i] == ts[i].weight
  {
    seq(|ts|, i requires 0 <= i < |ts| => ts[i].weight)
  }

  /** The template `random.choices(ANOMALY_CHOICES, weights=ANOMALY_WEIGHTS, k=1)[0]` picks
      for the random number `pick`. */
  function TemplateOf(pick: real): (k: nat)
    requires 0.0 <= pick < 1.0
    ensures k < |Anomalies|
  {
    ChooseWeighted(Weights(Anomalies), pick)
  }

  lemma AnomalyWeights()
    ensures var ws := Weights(Anomalies);
            && Sum(ws) == 6 && Sum(ws[..0]) == 0 && Sum(ws[..1]) == 3 && Sum(ws[..2]) == 5
  {
    var ws := Weights(Anomalies);
    assert ws == [3, 2, 1];
    assert ws[..2] == [3, 2] && ws[..1] == [3] && ws[..0] == [];
    assert [3, 2][..1] == [3] && [3][..0] == [];
  }

  /** The login template is drawn for half of the random numbers, the file template for
      a third and the network template for a sixth: weights 3, 2 and 1 out of 6. */
  lemma TemplateShares(pick: real)
    requires 0.0 <= pick < 1.0
    ensures TemplateOf(pick) == 0 <==> pick < 0.5
    ensures TemplateOf(pick) == 1 <==> 0.5 <= pick && 6.0 * pick < 5.0
    ensures TemplateOf(pick) == 2 <==> 5.0 <= 6.0 * pick
  {
    var ws := Weights(Anomalies);
    AnomalyWeights();
    ChooseWeightedInterval(ws, pick);
    var k := TemplateOf(pick);
    assert Scale(pick, 6) == pick * 6.0;
    assert ws[..3] == ws;
  }

  // ---------------------------------------------------------------------------
  // Draws
  // ---------------------------------------------------------------------------

  /** The indices `generate_normal_log` draws: level, event type, address, user, resource. */
  datatype NormalDraw = NormalDraw(level: nat, eventType: nat, ip: nat, user: nat, resource: nat)

  predicate ValidNormal(d: NormalDraw) {
    && d.level < |NormalLevels| && d.eventType < |EventTypes| && d.ip < NormalIpCount
    && d.user < |Usernames| && d.resource < |Resources|
  }

  /** What `generate_anomaly_log` draws: the number behind the template choice, then the
      indices its lambdas pick (ignored for a fixed field). */
  datatype AnomalyDraw = AnomalyDraw(pick: real, ip: nat, target: nat)

  predicate Fits(f: Field, i: nat) {
    f.Fixed? || i < |f.pool|
  }

  /** The value of a field: the fixed value, or the list entry the lambda picked. */
  function Resolve(f: Field, i: nat): string
    requires Fits(f, i)
  {
    match f
    case Fixed(v) => v
    case Drawn(pool) => pool[i]
  }

  predicate ValidAnomaly(d: AnomalyDraw) {
    && 0.0 <= d.pick < 1.0
    && Fits(Anomalies[TemplateOf(d.pick)].sourceIp, d.ip)
    && Fits(Anomalies[TemplateOf(d.pick)].target, d.target)
  }

  /** One iteration's draws: `random.random()` for the anomaly test, then the draws of
      whichever generator that selects. */
  datatype LineDraw = LineDraw(roll: real, normal: NormalDraw, anomaly: AnomalyDraw)

  predicate IsAnomaly(d: LineDraw) {
    d.roll < AnomalyProbability
  }

  predicate ValidDraw(d: LineDraw) {
    && 0.0 <= d.roll < 1.0
    && (IsAnomaly(d) ==> ValidAnomaly(d.anomaly))
    && (!IsAnomaly(d) ==> ValidNormal(d.normal))
  }

  // ---------------------------------------------------------------------------
  // Lines
  // ---------------------------------------------------------------------------

  /** `event_type.replace('_', ' ').lower()` on a name of ASCII capitals and underscores. */
  function SpokenChar(c: char): char {
    if c == '_' then ' ' else if 'A' <= c <= 'Z' then (c as int + 32) as char else c
  }

  function Spoken(name: string): (r: string)
    ensures |r| == |name| && forall i :: 0 <= i < |name| ==> r[i] == SpokenChar(name[i])
  {
    seq(|name|, i requires 0 <= i < |name| => SpokenChar(name[i]))
  }

  /** `f"{username} {event} {target_resource} from {source_ip} - {status}."` */
  function NormalMessage(user: string, eventType: string, resource: string, ip: string): string {
    user + " " + Spoken(eventType) + " " + resource + " from " + ip + " - " + NormalStatus + "."
  }

  /** The seven values of `generate_normal_log`, in line order: the formatted instant,
      values drawn from their lists, SUCCESS, and a message that repeats the line's own
      event type, resource and address. */
  function NormalFields(now: DateTime, d: NormalDraw): (fs: seq<string>)
    requires Valid(now) && ValidNormal(d)
    ensures |fs| == FieldCount && fs[TimestampField] == Format(now)
    ensures fs[LevelField] in NormalLevels && fs[EventTypeField] in EventTypes
    ensures fs[SourceIpField] in NormalIps && fs[TargetField] in Resources
    ensures fs[StatusField] == NormalStatus
    ensures fs[MessageField]
            == NormalMessage(Usernames[d.user], fs[EventTypeField], fs[TargetField], fs[SourceIpField])
  {
    var eventType, ip, resource := EventTypes[d.eventType], NormalIps[d.ip], Resources[d.resource];
    [Format(now), NormalLevels[d.level], eventType, ip, resource, NormalStatus,
     NormalMessage(Usernames[d.user], eventType, resource, ip)]
  }

  /** A value a template field can produce: its fixed value, or an entry of its list. */
  predicate Yields(f: Field, v: string) {
    match f
    case Fixed(x) => v == x
    case Drawn(pool) => v in pool
  }

  /** The seven values of `generate_anomaly_log`, in line order: the formatted instant
      and the chosen template's values, its two lambdas each producing an entry of its
      list. */
  function AnomalyFields(now: DateTime, d: AnomalyDraw): (fs: seq<string>)
    requires Valid(now) && ValidAnomaly(d)
    ensures |fs| == FieldCount && fs[TimestampField] == Format(now)
    ensures var t := Anomalies[TemplateOf(d.pick)];
            && fs[LevelField] == t.level && fs[EventTypeField] == t.eventType
            && Yields(t.sourceIp, fs[SourceIpField]) && Yields(t.target, fs[TargetField])
            && fs[StatusField] == t.status && fs[MessageField] == t.message
  {
    var t := Anomalies[TemplateOf(d.pick)];
    [Format(now), t.level, t.eventType, Resolve(t.sourceIp, d.ip), Resolve(t.target, d.target),
     t.status, t.message]
  }

  function LineFields(now: DateTime, d: LineDraw): (fs: seq<string>)
    requires Valid(now) && ValidDraw(d)
    ensures |fs| == FieldCount
  {
    if IsAnomaly(d) then AnomalyFields(now, d.anomaly) else NormalFields(now, d.normal)
  }

  /** One loop iteration's line (without its '\n'): the seven values joined by commas.
      No value holds a line feed, so written with one the line is one line of the file. */
  function GenerateLine(now: DateTime, d: LineDraw): (l: string)
    requires Valid(now) && ValidDraw(d)
    ensures 1000 <= now.year ==> forall k :: 0 <= k < |l| ==> l[k] != '\n'
  {
    var fs := LineFields(now, d);
    if 1000 <= now.year then
      LineFieldsPlain(now, d);
      JoinAvoids(fs, Delimiter, '\n');
      Join(fs, Delimiter)
    else
      Join(fs, Delimiter)
  }

  // ---------------------------------------------------------------------------
  // Text the csv reader takes as it is
  // ---------------------------------------------------------------------------

  /** The characters generated values are made of: letters, digits and a little
      punctuation, never a comma, a quote or a line break. */
  predicate SafeChar(c: char) {
    'a' <= c <= 'z' || 'A' <= c <= 'Z' || IsDigit(c)
    || c == ' ' || c == '.' || c == '/' || c == ':' || c == '_' || c == '-'
  }

  predicate Safe(s: string) {
    forall i :: 0 <= i < |s| ==> SafeChar(s[i])
  }

  lemma SafeConcat(a: string, b: string)
    requires Safe(a) && Safe(b)
    ensures Safe(a + b)
  {
    assert forall i :: 0 <= i < |b| ==> (a + b)[|a| + i] == b[i];
  }

  lemma DigitsSafe(s: string)
    requires AllDigits(s)
    ensures Safe(s)
  {
  }

  /** A short safe value is a plain csv field. */
  lemma SafePlain(s: string)
    requires Safe(s) && |s| <= FieldSizeLimit
    ensures Plain(s)
  {
  }

  // ---------------------------------------------------------------------------
  // Text no keyword occurs in
  // ---------------------------------------------------------------------------

  /** The first three letters of some keyword, case folded: "unu", "una", "fai", "den". */
  predicate KeywordHead(a: char, b: char, c: char) {
    || (a == 'u' && b == 'n' && (c == 'u' || c == 'a'))
    || (a == 'f' && b == 'a' && c == 'i')
    || (a == 'd' && b == 'e' && c == 'n')
  }

  predicate HeadAt(s: string, j: nat)
    requires j + 3 <= |s|
  {
    KeywordHead(Fold(s[j]), Fold(s[j + 1]), Fold(s[j + 2]))
  }

  /** No keyword can begin anywhere in `s`. */
  predicate Headless(s: string) {
    forall j: nat :: j + 3 <= |s| ==> !HeadAt(s, j)
  }

  /** `Headless` from position `i` on, one position at a time, so that it can be
      evaluated on a short literal. */
  predicate HeadlessFrom(s: string, i: nat)
    decreases |s| - i
  {
    if i + 3 > |s| then true
    else !KeywordHead(Fold(s[i]), Fold(s[i + 1]), Fold(s[i + 2])) && HeadlessFrom(s, i + 1)
  }

  lemma {:induction false} HeadlessFromSound(s: string, i: nat)
    requires HeadlessFrom(s, i)
    ensures forall j: nat :: i <= j && j + 3 <= |s| ==> !HeadAt(s, j)
    decreases |s| - i
  {
    if i + 3 <= |s| {
      HeadlessFromSound(s, i + 1);
    }
  }

  lemma Evaluated(s: string)
    requires HeadlessFrom(s, 0)
    ensures Headless(s)
  {
    HeadlessFromSound(s, 0);
  }

  lemma KeywordHeads()
    ensures forall k :: 0 <= k < |Keywords| ==>
              |Keywords[k]| >= 3 && KeywordHead(Keywords[k][0], Keywords[k][1], Keywords[k][2])
  {
  }

  /** A keyword matching at `i` begins with its head there. */
  lemma MatchHeadAt(s: string, i: nat, k: nat)
    requires k < |Keywords| && MatchesAt(s, i, Keywords[k])
    ensures i + 3 <= |s| && HeadAt(s, i)
  {
    var w := Keywords[k];
    KeywordHeads();
    KeywordsArePatterns();
    assert |w| >= 3;
    assert FoldEq(s[i + 0], w[0]) && FoldEq(s[i + 1], w[1]) && FoldEq(s[i + 2], w[2]);
    FoldIs(s[i], w[0]);
    FoldIs(s[i + 1], w[1]);
    FoldIs(s[i + 2], w[2]);
  }

  /** Where no keyword can begin, the keyword search finds nothing. */
  lemma HeadlessMentionsNothing(s: string)
    requires Headless(s)
    ensures !MentionsKeyword(s)
  {
    forall k, i | 0 <= k < |Keywords| && 0 <= i <= |s| ensures !MatchesAt(s, i, Keywords[k]) {
      if MatchesAt(s, i, Keywords[k]) {
        MatchHeadAt(s, i, k);
      }
    }
  }

  /** A character that folds to no lower-case letter cannot be part of a keyword head. */
  predicate Separator(c: char) {
    !('a' <= Fold(c) <= 'z')
  }

  lemma SeparatorsHeadless(s: string)
    requires forall i :: 0 <= i < |s| ==> Separator(s[i])
    ensures Headless(s)
  {
  }

  /** Two headless texts stay headless when joined at a separator. */
  lemma HeadlessConcat(a: string, b: string)
    requires Headless(a) && Headless(b)
    requires (|a| > 0 && Separator(a[|a| - 1])) || (|b| > 0 && Separator(b[0]))
    ensures Headless(a + b)
  {
    var s := a + b;
    forall j: nat | j + 3 <= |s| ensures !HeadAt(s, j) {
      if j + 3 <= |a| {
        assert s[j] == a[j] && s[j + 1] == a[j + 1] && s[j + 2] == a[j + 2];
        assert !HeadAt(a, j);
      } else if j >= |a| {
        assert s[j] == b[j - |a|] && s[j + 1] == b[j - |a| + 1] && s[j + 2] == b[j - |a| + 2];
        assert !HeadAt(b, j - |a|);
      } else {
        assert s[|a| - 1] == a[|a| - 1];
        assert s[|a|] == b[0];
      }
    }
  }

  // ---------------------------------------------------------------------------
  // The generated values
  // ---------------------------------------------------------------------------

  /** Every normal address is digits and dots: safe, and made of separators only. */
  lemma NormalIpShape(k: nat)
    requires k < NormalIpCount
    ensures 0 < |NormalIps[k]| <= 15 && Safe(NormalIps[k])
    ensures forall i :: 0 <= i < |NormalIps[k]| ==> Separator(NormalIps[k][i])
  {
    var a, b := AddressRange("192.168.1.", 10, 50), AddressRange("10.0.0.", 100, 120);
    if k < 40 {
      assert NormalIps[k] == a[k];
      AddressShape("192.168.1.", 10 + k);
    } else {
      assert NormalIps[k] == b[k - 40];
      AddressShape("10.0.0.", 100 + (k - 40));
    }
  }

  /** A prefix of digits and dots followed by a short number. */
  lemma AddressShape(prefix: string, n: nat)
    requires n < 100000 && |prefix| <= 10
    requires forall i :: 0 <= i < |prefix| ==> IsDigit(prefix[i]) || prefix[i] == '.'
    ensures var ip := prefix + DecimalString(n);
            && 0 < |ip| <= 15 && Safe(ip) && forall i :: 0 <= i < |ip| ==> Separator(ip[i])
  {
    var digits := DecimalString(n);
    ShortSuffix(n);
    var ip := prefix + digits;
    assert forall i :: |prefix| <= i < |ip| ==> ip[i] == digits[i - |prefix|];
  }

  lemma ShortWords()
    ensures forall i :: 0 <= i < |Usernames| ==> |Usernames[i]| <= 8
    ensures forall i :: 0 <= i < |EventTypes| ==> |EventTypes[i]| <= 13
    ensures forall i :: 0 <= i < |Resources| ==> |Resources[i]| <= 23
  {
  }

  lemma SpokenSafe(name: string)
    requires Safe(name)
    ensures Safe(Spoken(name))
  {
  }

  /** Replacing underscores and lowering case moves no letter in or out of a keyword head. */
  lemma SpokenHeadless(name: string)
    requires Headless(name)
    ensures Headless(Spoken(name))
  {
    var r := Spoken(name);
    forall j: nat | j + 3 <= |r| ensures !HeadAt(r, j) {
      assert !HeadAt(name, j);
    }
  }

  lemma FormatSafe(t: DateTime)
    requires Valid(t)
    ensures Safe(Format(t))
  {
    var y := YearText(t.year);
    assert Safe(y) by {
      if 1000 <= t.year < 10000 { FourDigitDecimal(t.year); }
      assert AllDigits(DecimalString(t.year));
    }
    var p1, p2, p3, p4, p5 := Pad2(t.month), Pad2(t.day), Pad2(t.hour), Pad2(t.minute), Pad2(t.second);
    SafeConcat(y, "-");
    SafeConcat(y + "-", p1);
    SafeConcat(y + "-" + p1, "-");
    SafeConcat(y + "-" + p1 + "-", p2);
    SafeConcat(y + "-" + p1 + "-" + p2, " ");
    SafeConcat(y + "-" + p1 + "-" + p2 + " ", p3);
    SafeConcat(y + "-" + p1 + "-" + p2 + " " + p3, ":");
    SafeConcat(y + "-" + p1 + "-" + p2 + " " + p3 + ":", p4);
    SafeConcat(y + "-" + p1 + "-" + p2 + " " + p3 + ":" + p4, ":");
    SafeConcat(y + "-" + p1 + "-" + p2 + " " + p3 + ":" + p4 + ":", p5);
  }

  /** The lists a normal line draws its words from. */
  lemma UsernamesSafe()
    ensures forall i :: 0 <= i < |Usernames| ==> |Usernames[i]| > 0 && Safe(Usernames[i])
  {
  }

  lemma EventTypesSafe()
    ensures forall i :: 0 <= i < |EventTypes| ==> Safe(EventTypes[i])
  {
  }

  lemma ResourcesSafe()
    ensures forall i :: 0 <= i < |Resources| ==> |Resources[i]| > 0 && Safe(Resources[i])
  {
    assert Safe(Resources[0]) && Safe(Resources[1]);
    assert Safe(Resources[2]);
    assert Safe(Resources[3]) && Safe(Resources[4]);
  }

  lemma UsernamesHeadless()
    ensures forall i :: 0 <= i < |Usernames| ==> Headless(Usernames[i])
  {
    Evaluated("UserA");
    Evaluated("UserB");
    Evaluated("AdminX");
    Evaluated("GuestY");
    Evaluated("ServiceZ");
  }

  lemma EventTypesHeadless()
    ensures forall i :: 0 <= i < |EventTypes| ==> Headless(EventTypes[i])
  {
    ShortEventTypesHeadless();
    Pieces("PROCESS_", "START");
    assert EventTypes[3] == "PROCESS_" + "START";
  }

  lemma ShortEventTypesHeadless()
    ensures Headless(EventTypes[0]) && Headless(EventTypes[1])
    ensures Headless(EventTypes[2]) && Headless(EventTypes[4])
  {
    Evaluated("LOGIN");
    Evaluated("FILE_ACCESS");
    Evaluated("NETWORK_CONN");
    Evaluated("AUTH_ATTEMPT");
  }

  lemma ResourcesHeadless()
    ensures forall i :: 0 <= i < |Resources| ==> Headless(Resources[i])
  {
    SyslogHeadless();
    Evaluated("/etc/passwd");
    PathHeadless();
    SeparatorsHeadless("192.168.1.1:80");
    BucketHeadless();
  }

  lemma SyslogHeadless()
    ensures Headless(Resources[0])
  {
    Pieces("/var/log/", "syslog");
    assert Resources[0] == "/var/log/" + "syslog";
  }

  lemma BucketHeadless()
    ensures Headless(Resources[4])
  {
    Pieces("public_", "s3_bucket");
    assert Resources[4] == "public_" + "s3_bucket";
  }

  lemma PathHeadless()
    ensures Headless(Resources[2])
  {
    Pieces("/data/", "reports/");
    Evaluated("sales.csv");
    HeadlessConcat("/data/" + "reports/", "sales.csv");
    assert Resources[2] == "/data/" + "reports/" + "sales.csv";
  }

  /** Two short pieces, the first ending in a separator, joined. */
  lemma Pieces(a: string, b: string)
    requires |a| > 0 && Separator(a[|a| - 1])
    requires HeadlessFrom(a, 0) && HeadlessFrom(b, 0)
    ensures Headless(a + b)
  {
    Evaluated(a);
    Evaluated(b);
    HeadlessConcat(a, b);
  }

  // ---------------------------------------------------------------------------
  // Normal messages
  // ---------------------------------------------------------------------------

  lemma GlueHeadless()
    ensures Headless(" ") && Headless(" from ") && Headless(" - ") && Headless("SUCCESS")
    ensures Headless(".")
  {
    Evaluated(" from ");
    Evaluated(" - ");
    Evaluated("SUCCESS");
  }

  /** Joined at spaces, dashes and the final full stop, the words of a normal message
      cannot make a keyword. */
  lemma NormalMessageHeadless(user: string, eventType: string, resource: string, ip: string)
    requires Headless(user) && Headless(eventType) && Headless(resource)
    requires forall i :: 0 <= i < |ip| ==> Separator(ip[i])
    ensures Headless(NormalMessage(user, eventType, resource, ip))
  {
    GlueHeadless();
    SpokenHeadless(eventType);
    SeparatorsHeadless(ip);
    var s1 := user + " ";
    HeadlessConcat(user, " ");
    var s2 := s1 + Spoken(eventType);
    HeadlessConcat(s1, Spoken(eventType));
    var s3 := s2 + " ";
    HeadlessConcat(s2, " ");
    var s4 := s3 + resource;
    HeadlessConcat(s3, resource);
    var s5 := s4 + " from ";
    HeadlessConcat(s4, " from ");
    var s6 := s5 + ip;
    HeadlessConcat(s5, ip);
    var s7 := s6 + " - ";
    HeadlessConcat(s6, " - ");
    var s8 := s7 + NormalStatus;
    HeadlessConcat(s7, NormalStatus);
    HeadlessConcat(s8, ".");
  }

  lemma NormalMessageSafe(user: string, eventType: string, resource: string, ip: string)
    requires Safe(user) && Safe(eventType) && Safe(resource) && Safe(ip)
    ensures Safe(NormalMessage(user, eventType, resource, ip))
  {
    SpokenSafe(eventType);
    var s1 := user + " ";
    SafeConcat(user, " ");
    var s2 := s1 + Spoken(eventType);
    SafeConcat(s1, Spoken(eventType));
    var s3 := s2 + " ";
    SafeConcat(s2, " ");
    var s4 := s3 + resource;
    SafeConcat(s3, resource);
    var s5 := s4 + " from ";
    SafeConcat(s4, " from ");
    var s6 := s5 + ip;
    SafeConcat(s5, ip);
    var s7 := s6 + " - ";
    SafeConcat(s6, " - ");
    var s8 := s7 + NormalStatus;
    SafeConcat(s7, NormalStatus);
    SafeConcat(s8, ".");
  }

  /** No normal message mentions a keyword. */
  lemma NormalMessageQuiet(d: NormalDraw)
    requires ValidNormal(d)
    ensures !MentionsKeyword(NormalMessage(Usernames[d.user], EventTypes[d.eventType],
                                           Resources[d.resource], NormalIps[d.ip]))
  {
    UsernamesHeadless();
    EventTypesHeadless();
    ResourcesHeadless();
    NormalIpShape(d.ip);
    var m := NormalMessage(Usernames[d.user], EventTypes[d.eventType], Resources[d.resource], NormalIps[d.ip]);
    NormalMessageHeadless(Usernames[d.user], EventTypes[d.eventType], Resources[d.resource], NormalIps[d.ip]);
    HeadlessMentionsNothing(m);
  }

  // ---------------------------------------------------------------------------
  // Generated lines read back
  // ---------------------------------------------------------------------------

  lemma NormalFieldsPlain(now: DateTime, d: NormalDraw)
    requires Valid(now) && 1000 <= now.year && ValidNormal(d)
    ensures var fs := NormalFields(now, d); forall i :: 0 <= i < |fs| ==> Plain(fs[i])
  {
    var fs := NormalFields(now, d);
    var user, eventType, resource, ip := Usernames[d.user], EventTypes[d.eventType], Resources[d.resource], NormalIps[d.ip];
    assert fs == [Format(now), NormalLevels[d.level], eventType, ip, resource, NormalStatus,
                  NormalMessage(user, eventType, resource, ip)];
    assert Plain(fs[0]) by {
      FormatSafe(now);
      SafePlain(fs[0]);
    }
    assert Plain(fs[2]) && Plain(fs[4]) by {
      EventTypesSafe();
      ResourcesSafe();
      ShortWords();
      SafePlain(eventType);
      SafePlain(resource);
    }
    assert Plain(fs[3]) by {
      NormalIpShape(d.ip);
      SafePlain(ip);
    }
    assert Plain(fs[6]) by {
      UsernamesSafe();
      EventTypesSafe();
      ResourcesSafe();
      ShortWords();
      NormalIpShape(d.ip);
      NormalMessageSafe(user, eventType, resource, ip);
      assert |fs[6]| <= 100;
      SafePlain(fs[6]);
    }
    assert Plain(fs[1]) && Plain(fs[5]) by {
      NormalWordsPlain();
    }
    FieldsPlain(fs);
  }

  lemma NormalWordsPlain()
    ensures forall k :: 0 <= k < |NormalLevels| ==> Plain(NormalLevels[k])
    ensures Plain(NormalStatus)
  {
    assert Safe(NormalLevels[0]) && Safe(NormalLevels[1]) && Safe(NormalStatus);
  }

  lemma FieldsPlain(fs: seq<string>)
    requires |fs| == FieldCount
    requires Plain(fs[0]) && Plain(fs[1]) && Plain(fs[2]) && Plain(fs[3])
    requires Plain(fs[4]) && Plain(fs[5]) && Plain(fs[6])
    ensures forall i :: 0 <= i < |fs| ==> Plain(fs[i])
  {
  }

  lemma TemplatesSafe()
    ensures forall k :: 0 <= k < |Anomalies| ==>
              && Safe(Anomalies[k].level) && Safe(Anomalies[k].eventType) && Safe(Anomalies[k].status)
              && Safe(Anomalies[k].message) && |Anomalies[k].message| <= 100
    ensures Safe("/etc/passwd") && Safe(ExternalTarget)
    ensures forall i :: 0 <= i < |MaliciousIps| ==> Safe(MaliciousIps[i]) && |MaliciousIps[i]| <= 15
  {
    TemplateNamesSafe();
    LoginMessageSafe();
    FileMessageSafe();
    NetworkMessageSafe();
    TargetSafe();
    MaliciousIpsSafe();
  }

  lemma TemplateNamesSafe()
    ensures forall k :: 0 <= k < |Anomalies| ==>
              Safe(Anomalies[k].level) && Safe(Anomalies[k].eventType) && Safe(Anomalies[k].status)
  {
    LoginNamesSafe();
    FileNamesSafe();
    NetworkNamesSafe();
  }

  lemma LoginNamesSafe()
    ensures Safe(Anomalies[0].level) && Safe(Anomalies[0].eventType) && Safe(Anomalies[0].status)
  {
  }

  lemma FileNamesSafe()
    ensures Safe(Anomalies[1].level) && Safe(Anomalies[1].eventType) && Safe(Anomalies[1].status)
  {
  }

  lemma NetworkNamesSafe()
    ensures Safe(Anomalies[2].level) && Safe(Anomalies[2].eventType) && Safe(Anomalies[2].status)
  {
  }

  lemma MaliciousIpsSafe()
    ensures forall i :: 0 <= i < |MaliciousIps| ==> Safe(MaliciousIps[i]) && |MaliciousIps[i]| <= 15
  {
  }

  lemma TargetSafe()
    ensures Safe(ExternalTarget)
  {
    Safe3("external.", "malicious.", "com:443");
  }

  lemma LoginMessageSafe()
    ensures Safe(LoginMessage)
  {
    Safe3("Multiple ", "failed ", "login ");
    Safe3("Multiple " + "failed " + "login ", "attempts ", "from ");
    Safe3("Multiple " + "failed " + "login " + "attempts " + "from ", "unusual ", "IP.");
  }

  lemma FileMessageSafe()
    ensures Safe(FileMessage)
  {
    Safe3("Unauthorized ", "access ", "attempt ");
    Safe3("Unauthorized " + "access " + "attempt ", "to ", "sensitive ");
    Safe3("Unauthorized " + "access " + "attempt " + "to " + "sensitive ", "system ", "file.");
  }

  lemma NetworkMessageSafe()
    ensures Safe(NetworkMessage)
  {
    Safe3("Outbound ", "connection ", "to ");
    Safe3("Outbound " + "connection " + "to ", "known ", "suspicious ");
    Safe3("Outbound " + "connection " + "to " + "known " + "suspicious ", "domain ", "timed ");
    SafeConcat("Outbound " + "connection " + "to " + "known " + "suspicious " + "domain " + "timed ", "out.");
  }

  lemma Safe3(a: string, b: string, c: string)
    requires Safe(a) && Safe(b) && Safe(c)
    ensures Safe(a + b + c)
  {
    SafeConcat(a, b);
    SafeConcat(a + b, c);
  }

  /** The address and the target an anomaly template resolves to. */
  lemma ResolvedSafe(d: AnomalyDraw)
    requires ValidAnomaly(d)
    ensures var t := Anomalies[TemplateOf(d.pick)];
            && Safe(Resolve(t.sourceIp, d.ip)) && |Resolve(t.sourceIp, d.ip)| <= 30
            && Safe(Resolve(t.target, d.target)) && |Resolve(t.target, d.target)| <= 30
  {
    TemplatesSafe();
    UsernamesSafe();
    ShortWords();
    var k := TemplateOf(d.pick);
    if k == 0 {
    } else if k == 1 {
      assert NormalIps[..5][d.ip] == NormalIps[d.ip];
      NormalIpShape(d.ip);
    } else {
      NormalIpShape(d.ip);
    }
  }

  lemma AnomalyFieldsPlain(now: DateTime, d: AnomalyDraw)
    requires Valid(now) && 1000 <= now.year && ValidAnomaly(d)
    ensures var fs := AnomalyFields(now, d); forall i :: 0 <= i < |fs| ==> Plain(fs[i])
  {
    var fs := AnomalyFields(now, d);
    FormatSafe(now);
    TemplatesSafe();
    ResolvedSafe(d);
    forall i | 0 <= i < |fs| ensures Plain(fs[i]) {
      SafePlain(fs[i]);
    }
  }

  lemma LineFieldsPlain(now: DateTime, d: LineDraw)
    requires Valid(now) && 1000 <= now.year && ValidDraw(d)
    ensures var fs := LineFields(now, d); forall i :: 0 <= i < |fs| ==> Plain(fs[i])
  {
    if IsAnomaly(d) {
      AnomalyFieldsPlain(now, d.anomaly);
    } else {
      NormalFieldsPlain(now, d.normal);
    }
  }

  /** The csv reader gives back exactly the seven values the generator joined. */
  lemma GeneratedLineParses(now: DateTime, d: LineDraw)
    requires Valid(now) && 1000 <= now.year && ValidDraw(d)
    ensures ParseLine(GenerateLine(now, d)) == Success(LineFields(now, d))
  {
    LineFieldsPlain(now, d);
    PlainRoundTrip(LineFields(now, d));
  }

  /** Every message, normal or anomalous, ends with a full stop. */
  lemma MessageEnds(now: DateTime, d: LineDraw)
    requires Valid(now) && ValidDraw(d)
    ensures var m := LineFields(now, d)[MessageField]; |m| > 0 && m[|m| - 1] == '.'
  {
  }

  /** Seven plain values, the first a formatted instant and the last ending in a
      character that is not white space, joined by commas, written with a '\n' and
      stripped: the processor accepts the line as those values and that instant. */
  lemma JoinedAccepted(fs: seq<string>, now: DateTime)
    requires |fs| == FieldCount && forall i :: 0 <= i < |fs| ==> Plain(fs[i])
    requires Valid(now) && 1000 <= now.year && fs[TimestampField] == Format(now)
    requires var m := fs[MessageField]; |m| > 0 && !IsSpace(m[|m| - 1])
    ensures Accept(Strip(Join(fs, Delimiter) + "\n")) == Success(Record(fs, now))
  {
    var line := Join(fs, Delimiter);
    ParseFormat(now);
    JoinFirst(fs, Delimiter);
    JoinLast(fs, Delimiter);
    StripLineEnd(line);
    PlainRoundTrip(fs);
  }

  /** Written with its '\n' and stripped by the monitor, a generated line passes every
      check of the processor and reads back as the values and the instant it was made
      from. */
  lemma GeneratedLineAccepted(now: DateTime, d: LineDraw)
    requires Valid(now) && 1000 <= now.year && ValidDraw(d)
    ensures Accept(Strip(GenerateLine(now, d) + "\n")) == Success(Record(LineFields(now, d), now))
  {
    LineFieldsPlain(now, d);
    MessageEnds(now, d);
    JoinedAccepted(LineFields(now, d), now);
  }

  // ---------------------------------------------------------------------------
  // The features of generated lines
  // ---------------------------------------------------------------------------

  /** The time features of a formatted instant are its minute of the day and its weekday. */
  lemma TimeOfFormat(now: DateTime)
    requires Valid(now) && 1000 <= now.year
    ensures TimeFeatures(Format(now)) == (now.hour * 60 + now.minute, Weekday(now.year, now.month, now.day))
  {
    ParseFormat(now);
  }

  lemma MatchExtends(a: string, b: string, i: int, w: string)
    requires MatchesAt(a, i, w)
    ensures MatchesAt(a + b, i, w) && MatchesAt(b + a, |b| + i, w)
  {
    forall j | 0 <= j < |w| ensures FoldEq((a + b)[i + j], w[j]) && FoldEq((b + a)[|b| + i + j], w[j]) {
      assert (a + b)[i + j] == a[i + j] == (b + a)[|b| + i + j];
    }
  }

  /** "unusual" occurs in the login message. */
  lemma LoginMessageLoud()
    ensures MentionsKeyword(LoginMessage)
  {
    var w := Keywords[0];
    assert MatchesAt("unusual ", 0, w);
    var a := "Multiple " + "failed " + "login " + "attempts " + "from ";
    MatchExtends("unusual ", a, 0, w);
    MatchExtends(a + "unusual ", "IP.", |a|, w);
  }

  /** "unauthorized" opens the file message. */
  lemma FileMessageLoud()
    ensures MentionsKeyword(FileMessage)
  {
    var w := Keywords[1];
    var s := "Unauthorized ";
    assert MatchesAt(s, 0, w);
    MatchExtends(s, "access ", 0, w);
    s := s + "access ";
    MatchExtends(s, "attempt ", 0, w);
    s := s + "attempt ";
    MatchExtends(s, "to ", 0, w);
    s := s + "to ";
    MatchExtends(s, "sensitive ", 0, w);
    s := s + "sensitive ";
    MatchExtends(s, "system ", 0, w);
    s := s + "system ";
    MatchExtends(s, "file.", 0, w);
  }

  /** The network message mentions no keyword: "domain" and "timed out" are not among
      them. */
  lemma NetworkMessageQuiet()
    ensures !MentionsKeyword(NetworkMessage)
  {
    var s := "Outbound " + "connection " + "to " + "known ";
    OutboundHeadless();
    WordAfter(s, "suspicious ");
    s := s + "suspicious ";
    WordAfter(s, "domain ");
    s := s + "domain ";
    WordAfter(s, "timed ");
    s := s + "timed ";
    WordAfter(s, "out.");
    HeadlessMentionsNothing(NetworkMessage);
  }

  lemma OutboundHeadless()
    ensures Headless("Outbound " + "connection " + "to " + "known ")
  {
    var s := "Outbound ";
    Evaluated(s);
    WordAfter(s, "connection ");
    s := s + "connection ";
    WordAfter(s, "to ");
    s := s + "to ";
    WordAfter(s, "known ");
  }

  lemma WordAfter(s: string, word: string)
    requires Headless(s) && |s| > 0 && s[|s| - 1] == ' '
    requires HeadlessFrom(word, 0)
    ensures Headless(s + word)
  {
    Evaluated(word);
    HeadlessConcat(s, word);
  }

  lemma NotFailure()
    ensures !SpellsUpper(NormalStatus, FailureStatus)
    ensures !SpellsUpper("DENIED", FailureStatus) && !SpellsUpper("TIMEOUT", FailureStatus)
    ensures SpellsUpper("FAILURE", FailureStatus)
  {
    assert !UpperIs(NormalStatus[0], FailureStatus[0]);
    assert !UpperIs("TIMEOUT"[0], FailureStatus[0]);
  }

  /** The feature vector of seven values whose first is a formatted instant. */
  lemma FeaturesOfLine(fs: seq<string>, now: DateTime)
    requires |fs| == FieldCount && Valid(now) && 1000 <= now.year && fs[TimestampField] == Format(now)
    ensures ExtractFeatures(fs)
              == FeatureVector(LevelRank(fs[LevelField]), EventTypeRank(fs[EventTypeField]),
                               FailureFlag(fs[StatusField]), SuspiciousFlag(fs[MessageField]),
                               now.hour * 60 + now.minute, Weekday(now.year, now.month, now.day))
  {
    TimeOfFormat(now);
  }

  lemma NormalRanks()
    ensures forall i :: 0 <= i < |NormalLevels| ==> LevelRank(NormalLevels[i]) == 1 - i
    ensures forall i :: 0 <= i < |EventTypes| ==> EventTypeRank(EventTypes[i]) == i
  {
  }

  /** A normal line: severity INFO (1) or DEBUG (0), its event type's own rank, no
      failure, no keyword, and the time it was written. */
  lemma NormalLineFeatures(now: DateTime, d: NormalDraw)
    requires Valid(now) && 1000 <= now.year && ValidNormal(d)
    ensures ExtractFeatures(NormalFields(now, d))
              == FeatureVector(1 - d.level, d.eventType, 0, 0, now.hour * 60 + now.minute,
                               Weekday(now.year, now.month, now.day))
  {
    var fs := NormalFields(now, d);
    FeaturesOfLine(fs, now);
    NormalRanks();
    NotFailure();
    assert FailureFlag(fs[StatusField]) == 0;
    NormalMessageQuiet(d);
    assert SuspiciousFlag(fs[MessageField]) == 0;
  }

  /** The severity, event type and flags each template's lines carry. */
  lemma TemplateFlags()
    ensures var t := Anomalies[0];
            (LevelRank(t.level), EventTypeRank(t.eventType), FailureFlag(t.status), SuspiciousFlag(t.message))
              == (3, 5, 1, 1)
    ensures var t := Anomalies[1];
            (LevelRank(t.level), EventTypeRank(t.eventType), FailureFlag(t.status), SuspiciousFlag(t.message))
              == (4, 1, 0, 1)
    ensures var t := Anomalies[2];
            (LevelRank(t.level), EventTypeRank(t.eventType), FailureFlag(t.status), SuspiciousFlag(t.message))
              == (2, 2, 0, 0)
  {
    TemplateRanks();
    NotFailure();
    LoginMessageLoud();
    FileMessageLoud();
    NetworkMessageQuiet();
    var t0, t1, t2 := Anomalies[0], Anomalies[1], Anomalies[2];
    assert t0.status == "FAILURE" && t0.message == LoginMessage;
    assert t1.status == "DENIED" && t1.message == FileMessage;
    assert t2.status == "TIMEOUT" && t2.message == NetworkMessage;
  }

  lemma TemplateRanks()
    ensures LevelRank(Anomalies[0].level) == 3 && EventTypeRank(Anomalies[0].eventType) == 5
    ensures LevelRank(Anomalies[1].level) == 4 && EventTypeRank(Anomalies[1].eventType) == 1
    ensures LevelRank(Anomalies[2].level) == 2 && EventTypeRank(Anomalies[2].eventType) == 2
  {
    RanksOf(Anomalies[0], 3, 5);
    RanksOf(Anomalies[1], 4, 1);
    RanksOf(Anomalies[2], 2, 2);
  }

  lemma RanksOf(t: Template, level: int, eventType: int)
    requires t.level in LevelMap && LevelMap[t.level] == level
    requires t.eventType in EventTypeMap && EventTypeMap[t.eventType] == eventType
    ensures LevelRank(t.level) == level && EventTypeRank(t.eventType) == eventType
  {
  }

  /** An anomalous line has the severity, event type, failure and keyword flags of its
      template, and the time it was written. With `TemplateShares`: half of the anomalies
      are failed logins (ERROR, LOGIN_FAILED, failure, keyword), a third are denied file
      reads (CRITICAL, FILE_ACCESS, keyword) and a sixth are timeouts (WARN, NETWORK_CONN,
      neither flag). */
  lemma AnomalyLineFeatures(now: DateTime, d: AnomalyDraw)
    requires Valid(now) && 1000 <= now.year && ValidAnomaly(d)
    ensures var f := ExtractFeatures(AnomalyFields(now, d));
            && f.minuteOfDay == now.hour * 60 + now.minute
            && f.dayOfWeek == Weekday(now.year, now.month, now.day)
            && (d.pick < 0.5 ==> (f.level, f.eventType, f.failure, f.suspicious) == (3, 5, 1, 1))
            && (0.5 <= d.pick && 6.0 * d.pick < 5.0 ==>
                  (f.level, f.eventType, f.failure, f.suspicious) == (4, 1, 0, 1))
            && (5.0 <= 6.0 * d.pick ==> (f.level, f.eventType, f.failure, f.suspicious) == (2, 2, 0, 0))
  {
    var fs := AnomalyFields(now, d);
    FeaturesOfLine(fs, now);
    TemplateShares(d.pick);
    TemplateFlags();
  }

  // ---------------------------------------------------------------------------
  // The log file
  // ---------------------------------------------------------------------------

  /** A clock that reads a year of four digits and draws the generator can make, at
      every iteration. */
  ghost predicate Sound(clock: nat -> DateTime, draw: nat -> LineDraw) {
    forall i: nat :: Valid(clock(i)) && 1000 <= clock(i).year && ValidDraw(draw(i))
  }

  lemma {:induction false} JoinAvoids(parts: seq<string>, sep: char, c: char)
    requires sep != c
    requires forall i, k :: 0 <= i < |parts| && 0 <= k < |parts[i]| ==> parts[i][k] != c
    ensures forall k :: 0 <= k < |Join(parts, sep)| ==> Join(parts, sep)[k] != c
  {
    if |parts| > 1 {
      JoinAvoids(parts[1..], sep, c);
      var head, tail := parts[0] + [sep], Join(parts[1..], sep);
      assert forall k :: 0 <= k < |tail| ==> (head + tail)[|head| + k] == tail[k];
    }
  }

  /** What iteration `i` appends to the file: its line and a '\n'. */
  function Appended(clock: nat -> DateTime, draw: nat -> LineDraw, i: nat): (l: string)
    requires Sound(clock, draw)
    ensures IsLine(l) && Terminated(l)
  {
    GenerateLine(clock(i), draw(i)) + "\n"
  }

  /** The first `n` values of `line`, in order. */
  function Prefix(line: nat --> string, n: nat): (r: seq<string>)
    requires forall i :: 0 <= i < n ==> line.requires(i)
    ensures |r| == n && forall i :: 0 <= i < n ==> r[i] == line(i)
  {
    if n == 0 then [] else Prefix(line, n - 1) + [line(n - 1)]
  }

  /** The lines in the file after `n` iterations: line `i` is the one generated from
      the clock reading and the draws of iteration `i`. */
  function Written(clock: nat -> DateTime, draw: nat -> LineDraw, n: nat): (lines: seq<string>)
    requires Sound(clock, draw)
    ensures |lines| == n
    ensures forall i :: 0 <= i < n ==> lines[i] == Appended(clock, draw, i)
  {
    Prefix((i: nat) requires Sound(clock, draw) => Appended(clock, draw, i), n)
  }

  /** One more iteration appends one more line. */
  lemma WrittenSnoc(clock: nat -> DateTime, draw: nat -> LineDraw, n: nat)
    requires Sound(clock, draw)
    ensures Written(clock, draw, n + 1) == Written(clock, draw, n) + [Appended(clock, draw, n)]
  {
  }

  /** The file is made of whole lines, each ending in its '\n'. */
  lemma WrittenShaped(clock: nat -> DateTime, draw: nat -> LineDraw, n: nat)
    requires Sound(clock, draw)
    ensures var lines := Written(clock, draw, n);
            LineShaped(lines) && forall i :: 0 <= i < n ==> Terminated(lines[i])
  {
    var lines := Written(clock, draw, n);
    forall i | 0 <= i < n ensures IsLine(lines[i]) && Terminated(lines[i]) {
      assert lines[i] == Appended(clock, draw, i);
    }
  }

  /** `run_log_generator`: empty the file, then append one line and its '\n' per
      iteration until NUM_LOGS_TO_GENERATE lines are written. Reading the file back
      line by line gives exactly the generated lines, in order. */
  method RunGenerator(clock: nat -> DateTime, draw: nat -> LineDraw) returns (file: string)
    requires Sound(clock, draw)
    ensures file == Concat(Written(clock, draw, NumLogsToGenerate))
    ensures SplitLines(file) == Written(clock, draw, NumLogsToGenerate)
  {
    file := "";
    var count := 0;
    while count < NumLogsToGenerate
      invariant count <= NumLogsToGenerate
      invariant file == Concat(Written(clock, draw, count))
    {
      var line := Appended(clock, draw, count);
      ConcatSnoc(Written(clock, draw, count), line);
      WrittenSnoc(clock, draw, count);
      file := file + line;
      count := count + 1;
    }
    WrittenShaped(clock, draw, NumLogsToGenerate);
    SplitConcat(Written(clock, draw, NumLogsToGenerate));
  }

  lemma StrippedSnoc(lines: seq<string>, last: string)
    ensures Stripped(lines + [last]) == Stripped(lines) + [Strip(last)]
  {
  }

  lemma AcceptedSnoc(lines: seq<string>, last: string)
    ensures AcceptedCount(lines + [last]) == AcceptedCount(lines) + if Accept(last).Success? then 1 else 0
  {
    assert (lines + [last])[..|lines|] == lines;
  }

  /** Every line the generator writes is accepted by the processor. */
  lemma {:induction false} WrittenAccepted(clock: nat -> DateTime, draw: nat -> LineDraw, n: nat)
    requires Sound(clock, draw)
    ensures AcceptedCount(Stripped(Written(clock, draw, n))) == n
  {
    if n > 0 {
      var front, line := Written(clock, draw, n - 1), Appended(clock, draw, n - 1);
      WrittenSnoc(clock, draw, n - 1);
      StrippedSnoc(front, line);
      AcceptedSnoc(Stripped(front), Strip(line));
      WrittenAccepted(clock, draw, n - 1);
      GeneratedLineAccepted(clock(n - 1), draw(n - 1));
    }
  }

  /** The generated file is not empty, and polling it from its head gives back every
      generated line. */
  lemma WrittenFile(clock: nat -> DateTime, draw: nat -> LineDraw, n: nat)
    requires Sound(clock, draw) && n > 0
    ensures var lines := Written(clock, draw, n);
            |Concat(lines)| > 0 && Poll(Concat(lines), 0).0 == lines
  {
    var lines := Written(clock, draw, n);
    var file := Concat(lines);
    WrittenShaped(clock, draw, n);
    SplitConcat(lines);
    assert file[0..] == file;
    var l := lines[0];
    assert Terminated(l);
    ConcatAppend([l], lines[1..]);
    assert [l] + lines[1..] == lines;
    assert Concat([l]) == l + "";
  }

  /** The first cycle over a file of `n > 0` generated lines commits `n` documents. */
  lemma WrittenIndexed(clock: nat -> DateTime, draw: nat -> LineDraw, n: nat, model: Option<Predictor>,
                       suffix: nat -> Suffix)
    requires Sound(clock, draw) && n > 0
    ensures |Cycle(Monitor(0, Initial), Concat(Written(clock, draw, n)), model, suffix).0.processor.committed| == n
  {
    var lines := Written(clock, draw, n);
    var file := Concat(lines);
    assert |file| > 0 && Poll(file, 0).0 == lines by {
      WrittenFile(clock, draw, n);
    }
    assert AcceptedCount(Stripped(lines)) == n by {
      WrittenAccepted(clock, draw, n);
    }
    CycleCommits(Monitor(0, Initial), file, model, suffix);
  }

  /** A monitor starting on an empty index at the head of the generated file commits one
      document per generated line in its first cycle. */
  lemma GeneratedFileIndexed(clock: nat -> DateTime, draw: nat -> LineDraw, model: Option<Predictor>,
                             suffix: nat -> Suffix)
    requires Sound(clock, draw)
    ensures var file := Concat(Written(clock, draw, NumLogsToGenerate));
            |Cycle(Monitor(0, Initial), file, model, suffix).0.processor.committed| == NumLogsToGenerate
  {
    WrittenIndexed(clock, draw, NumLogsToGenerate, model, suffix);
  }
}

=== FILE: pipeline.dfy ===
/** `process_log_entry` and `train_anomaly_detector`: a log line is parsed, checked,
    turned into features, buffered and indexed; once a trained detector exists, every
    full buffer is scored as one batch, its outliers reported and the buffer emptied. */
module Pipeline {
  import opened Common
  import opened Calendar
  import opened Timestamp
  import opened CsvReader
  import opened Features

  const TrainingLogCount := 35000
  const FeatureBufferSize := 100

  /** `IsolationForest.predict` answers 1 (inlier) or -1 (outlier) for each row. */
  datatype Verdict = Inlier | Outlier

  /** A trained detector, scoring each row on its own. */
  type Predictor = FeatureVector -> Verdict

  /** `random.randint(0, 99999)`. */
  type Suffix = n: nat | n < 100000

  /** `{"features": ..., "raw_log": ...}`. */
  datatype BufferEntry = BufferEntry(features: FeatureVector, raw: string)

  /** The fields handed to the index writer's `add_document`, in schema order (the
      zlib-compressed copy of the line is not part of this model). */
  datatype Document = Document(
    logId: string, timestamp: DateTime, level: string, eventType: string, sourceIp: string,
    targetResource: string, status: string, messageRaw: string)

  /** The processor's state: the feature buffer and the documents written but not yet
      committed, then those committed. */
  datatype Processor = Processor(buffer: seq<BufferEntry>, pending: seq<Document>, committed: seq<Document>)

  const Initial := Processor([], [], [])

  /** Why a line is skipped. */
  datatype Rejection =
    | Unreadable(error: CsvError)     // the csv reader raises
    | FieldCountMismatch(count: nat)  // the record does not have seven fields
    | InvalidTimestamp                // the first field is not a `%Y-%m-%d %H:%M:%S` instant

  /** A line that passed both checks: its seven fields and its instant. */
  datatype Record = Record(parts: seq<string>, time: DateTime)

  /** The checks of `process_log_entry`, in order: the csv record, seven fields, a valid
      timestamp in the first. */
  function Accept(line: string): (r: Result<Record, Rejection>)
    ensures r.Success? ==>
              && ParseLine(line) == Success(r.value.parts) && |r.value.parts| == FieldCount
              && Parse(r.value.parts[TimestampField]) == Some(r.value.time)
    ensures r.Failure? ==>
              match r.error
              case Unreadable(e) => ParseLine(line) == Failure(e)
              case FieldCountMismatch(n) => ParseLine(line).Success? && |ParseLine(line).value| == n != FieldCount
              case InvalidTimestamp =>
                ParseLine(line).Success? && |ParseLine(line).value| == FieldCount
                && Parse(ParseLine(line).value[TimestampField]).None?
  {
    match ParseLine(line)
    case Failure(e) => Failure(Unreadable(e))
    case Success(parts) =>
      if |parts| != FieldCount then Failure(FieldCountMismatch(|parts|))
      else
        match Parse(parts[TimestampField])
        case None => Failure(InvalidTimestamp)
        case Some(t) => Success(Record(parts, t))
  }

  // ---------------------------------------------------------------------------
  // Document ids
  // ---------------------------------------------------------------------------

  /** `f"{dt.strftime('%Y%m%d%H%M%S%f')}_{random.randint(0, 99999)}"`: the stamp, an
      underscore, and the suffix in decimal. The underscore is the only non-digit. */
  function DocId(t: DateTime, suffix: Suffix): (id: string)
    requires Valid(t)
    ensures var n := |CompactStamp(t)|;
            && |id| > n + 1 && id[..n] == CompactStamp(t) && id[n] == '_'
            && id[n + 1..] == DecimalString(suffix)
    ensures forall k :: 0 <= k < |id| ==> (id[k] == '_' <==> k == |CompactStamp(t)|)
    ensures forall k :: 0 <= k < |id| && k != |CompactStamp(t)| ==> IsDigit(id[k])
    ensures 1000 <= t.year ==> 22 <= |id| <= 26 && id[20] == '_' && AllDigits(id[..20])
  {
    var stamp := CompactStamp(t);
    var tail := DecimalString(suffix);
    var id := stamp + "_" + tail;
    assert forall k :: 0 <= k < |tail| ==> id[|stamp| + 1 + k] == tail[k];
    assert id[..|stamp|] == stamp && id[|stamp| + 1..] == tail;
    if 1000 <= t.year then
      assert |tail| <= 5 by { ShortSuffix(suffix); }
      id
    else
      id
  }

  lemma ShortSuffix(n: nat)
    requires n < 100000
    ensures |DecimalString(n)| <= 5
  {
    if n >= 100 {
      ShortDecimal(n / 100);
      assert DecimalString(n) == DecimalString(n / 10) + [DigitChar(n % 10)];
      assert DecimalString(n / 10) == DecimalString(n / 10 / 10) + [DigitChar(n / 10 % 10)];
      assert n / 10 / 10 == n / 100;
    } else {
      ShortDecimal(n);
    }
  }

  /** An id determines its instant and its random suffix: two documents share an id
      exactly when they come from the same second and drew the same suffix. The
      underscore sits at the same place in both, so the stamps and suffixes agree. */
  lemma DocIdInjective(t: DateTime, a: Suffix, u: DateTime, b: Suffix)
    requires Valid(t) && Valid(u)
    ensures DocId(t, a) == DocId(u, b) <==> t == u && a == b
  {
    var id := DocId(t, a);
    if id == DocId(u, b) {
      var m, n := |CompactStamp(t)|, |CompactStamp(u)|;
      assert id[m] == '_' && id[n] == '_';
      assert m == n;
      CompactStampInjective(t, u);
      DecimalStringInjective(a, b);
    }
  }

  // ---------------------------------------------------------------------------
  // Scoring a full buffer
  // ---------------------------------------------------------------------------

  /** The lines reported for a scored buffer: the stripped raw line of each entry the
      detector calls an outlier, in buffer order. */
  function Flagged(b: seq<BufferEntry>, predict: Predictor): (r: seq<string>)
    ensures |r| <= |b|
  {
    if |b| == 0 then []
    else
      var last := b[|b| - 1];
      Flagged(b[..|b| - 1], predict) + (if predict(last.features) == Outlier then [ReportLine(last)] else [])
  }

  /** Reporting distributes over consecutive stretches of the buffer, so reports keep
      buffer order. */
  lemma {:induction false} FlaggedAppend(a: seq<BufferEntry>, b: seq<BufferEntry>, predict: Predictor)
    ensures Flagged(a + b, predict) == Flagged(a, predict) + Flagged(b, predict)
    decreases |b|
  {
    if |b| == 0 {
      assert a + b == a;
    } else {
      assert (a + b)[..|a + b| - 1] == a + b[..|b| - 1];
      FlaggedAppend(a, b[..|b| - 1], predict);
    }
  }

  /** The line reported for an outlier entry. */
  function ReportLine(e: BufferEntry): string {
    Strip(e.raw)
  }

  /** Entry `i` of the buffer is an outlier whose stripped line is `line`. */
  predicate ReportedAt(b: seq<BufferEntry>, predict: Predictor, i: int, line: string) {
    0 <= i < |b| && predict(b[i].features) == Outlier && ReportLine(b[i]) == line
  }

  lemma FlaggedLast(b: seq<BufferEntry>, predict: Predictor)
    requires |b| > 0
    ensures Flagged(b, predict)
         == Flagged(b[..|b| - 1], predict)
            + (if predict(b[|b| - 1].features) == Outlier then [ReportLine(b[|b| - 1])] else [])
  {
  }

  /** A line is reported exactly when some buffered entry holding it is an outlier. */
  lemma FlaggedMembership(b: seq<BufferEntry>, predict: Predictor, line: string)
    ensures line in Flagged(b, predict) <==> exists i :: ReportedAt(b, predict, i, line)
  {
    if line in Flagged(b, predict) {
      FlaggedSound(b, predict, line);
    }
    if exists i :: ReportedAt(b, predict, i, line) {
      var i :| ReportedAt(b, predict, i, line);
      FlaggedComplete(b, predict, i, line);
    }
  }

  lemma {:induction false} FlaggedSound(b: seq<BufferEntry>, predict: Predictor, line: string)
    requires line in Flagged(b, predict)
    ensures exists i :: ReportedAt(b, predict, i, line)
  {
    var n := |b| - 1;
    var front := b[..n];
    FlaggedLast(b, predict);
    if line in Flagged(front, predict) {
      FlaggedSound(front, predict, line);
      var i :| ReportedAt(front, predict, i, line);
      assert ReportedAt(b, predict, i, line);
    } else {
      assert ReportedAt(b, predict, n, line);
    }
  }

  lemma {:induction false} FlaggedComplete(b: seq<BufferEntry>, predict: Predictor, i: int, line: string)
    requires ReportedAt(b, predict, i, line)
    ensures line in Flagged(b, predict)
  {
    var n := |b| - 1;
    var front := b[..n];
    FlaggedLast(b, predict);
    if i < n {
      assert ReportedAt(front, predict, i, line);
      FlaggedComplete(front, predict, i, line);
    }
  }

  /** The reporting loop: `for i, prediction in enumerate(predictions): if prediction == -1`. */
  method ReportAnomalies(b: seq<BufferEntry>, predict: Predictor) returns (reported: seq<string>)
    ensures reported == Flagged(b, predict)
  {
    reported := [];
    var i := 0;
    while i < |b|
      invariant 0 <= i <= |b|
      invariant reported == Flagged(b[..i], predict)
    {
      assert b[..i + 1][..i] == b[..i];
      if predict(b[i].features) == Outlier {
        reported := reported + [ReportLine(b[i])];
      }
      i := i + 1;
    }
    assert b[..i] == b;
  }

  // ---------------------------------------------------------------------------
  // process_log_entry
  // ---------------------------------------------------------------------------

  /** What became of one line: skipped, or indexed (with the lines reported if its
      arrival filled the buffer). */
  datatype Outcome = Skipped(why: Rejection) | Indexed(reported: seq<string>)

  datatype StepResult = StepResult(next: Processor, outcome: Outcome)

  /** The document written for an accepted record. */
  predicate DocumentOf(d: Document, rec: Record, suffix: Suffix)
    requires |rec.parts| == FieldCount && Valid(rec.time)
  {
    && d.logId == DocId(rec.time, suffix) && d.timestamp == rec.time
    && d.level == rec.parts[LevelField] && d.eventType == rec.parts[EventTypeField]
    && d.sourceIp == rec.parts[SourceIpField] && d.targetResource == rec.parts[TargetField]
    && d.status == rec.parts[StatusField] && d.messageRaw == rec.parts[MessageField]
  }

  /** The entry buffered for an accepted line. */
  function EntryOf(rec: Record, line: string): BufferEntry
    requires |rec.parts| == FieldCount
  {
    BufferEntry(ExtractFeatures(rec.parts), line)
  }

  /** The document written for an accepted line. */
  function DocumentFor(rec: Record, suffix: Suffix): (d: Document)
    requires |rec.parts| == FieldCount && Valid(rec.time)
    ensures DocumentOf(d, rec, suffix)
  {
    var parts := rec.parts;
    Document(DocId(rec.time, suffix), rec.time, parts[LevelField], parts[EventTypeField],
             parts[SourceIpField], parts[TargetField], parts[StatusField], parts[MessageField])
  }

  /** Buffering one entry and writing its document; a full buffer is scored when a
      detector exists. */
  function Admit(p: Processor, model: Option<Predictor>, e: BufferEntry, d: Document): (r: StepResult)
    ensures r.outcome.Indexed? && r.next.pending == p.pending + [d] && r.next.committed == p.committed
    ensures model.Some? && |p.buffer| + 1 >= FeatureBufferSize ==>
              r.next.buffer == [] && r.outcome.reported == Flagged(p.buffer + [e], model.value)
    ensures !(model.Some? && |p.buffer| + 1 >= FeatureBufferSize) ==>
              r.next.buffer == p.buffer + [e] && r.outcome.reported == []
  {
    var b := p.buffer + [e];
    if model.Some? && |b| >= FeatureBufferSize then
      StepResult(Processor([], p.pending + [d], p.committed), Indexed(Flagged(b, model.value)))
    else
      StepResult(Processor(b, p.pending + [d], p.committed), Indexed([]))
  }

  /** `process_log_entry` on one (already stripped) line. A skipped line changes nothing;
      an accepted one is admitted with its features and its document. */
  function ProcessLogEntry(p: Processor, model: Option<Predictor>, line: string, suffix: Suffix): (r: StepResult)
    ensures Accept(line).Failure? ==> r == StepResult(p, Skipped(Accept(line).error))
    ensures Accept(line).Success? ==>
              r == Admit(p, model, EntryOf(Accept(line).value, line), DocumentFor(Accept(line).value, suffix))
  {
    match Accept(line)
    case Failure(why) => StepResult(p, Skipped(why))
    case Success(rec) => Admit(p, model, EntryOf(rec, line), DocumentFor(rec, suffix))
  }

  /** An accepted line is buffered with its features and written to the index; when a
      detector exists and the buffer has reached its size, the whole buffer is scored,
      its outliers are reported in order, and it is emptied. Nothing is committed here. */
  lemma ProcessAccepted(p: Processor, model: Option<Predictor>, line: string, suffix: Suffix)
    requires Accept(line).Success?
    ensures var rec := Accept(line).value;
            var r := ProcessLogEntry(p, model, line, suffix);
            var b := p.buffer + [BufferEntry(ExtractFeatures(rec.parts), line)];
            && r.outcome.Indexed?
            && |r.next.pending| == |p.pending| + 1 && r.next.pending[..|p.pending|] == p.pending
            && DocumentOf(r.next.pending[|p.pending|], rec, suffix)
            && r.next.committed == p.committed
            && (if model.Some? && |b| >= FeatureBufferSize
                then r.next.buffer == [] && r.outcome.reported == Flagged(b, model.value)
                else r.next.buffer == b && r.outcome.reported == [])
  {
    var rec := Accept(line).value;
    var d := DocumentFor(rec, suffix);
    assert (p.pending + [d])[..|p.pending|] == p.pending;
  }

  /** `writer.commit()`: everything written so far becomes committed. */
  function Commit(p: Processor): (r: Processor)
    ensures r.committed == p.committed + p.pending && r.pending == [] && r.buffer == p.buffer
  {
    Processor(p.buffer, [], p.committed + p.pending)
  }

  /** The lines of `lines` that pass the checks. */
  function AcceptedCount(lines: seq<string>): (n: nat)
    ensures n <= |lines|
  {
    if |lines| == 0 then 0
    else AcceptedCount(lines[..|lines| - 1]) + (if Accept(lines[|lines| - 1]).Success? then 1 else 0)
  }

  /** A run of lines, each with its random suffix; the reports of every step, in order.
      Nothing is committed along the way, and the documents already written stay
      pending, in place, ahead of the new ones. */
  function ProcessAll(p: Processor, model: Option<Predictor>, lines: seq<string>, suffixes: seq<Suffix>)
    : (r: (Processor, seq<string>))
    requires |suffixes| == |lines|
    ensures r.0.committed == p.committed
    ensures |r.0.pending| >= |p.pending| && r.0.pending[..|p.pending|] == p.pending
  {
    if |lines| == 0 then (p, [])
    else
      var front := ProcessAll(p, model, lines[..|lines| - 1], suffixes[..|lines| - 1]);
      var step := ProcessLogEntry(front.0, model, lines[|lines| - 1], suffixes[|lines| - 1]);
      assert step.next.pending[..|front.0.pending|] == front.0.pending;
      assert step.next.pending[..|p.pending|] == front.0.pending[..|p.pending|];
      (step.next, front.1 + (if step.outcome.Indexed? then step.outcome.reported else []))
  }

  /** With a detector the buffer is emptied as soon as it fills, so it never holds a
      full batch between lines. */
  lemma {:induction false} BufferBounded(p: Processor, model: Option<Predictor>, lines: seq<string>, suffixes: seq<Suffix>)
    requires |suffixes| == |lines|
    requires model.Some? && |p.buffer| < FeatureBufferSize
    ensures |ProcessAll(p, model, lines, suffixes).0.buffer| < FeatureBufferSize
  {
    if |lines| > 0 {
      BufferBounded(p, model, lines[..|lines| - 1], suffixes[..|lines| - 1]);
    }
  }

  /** Every accepted line writes one document, skipped lines none. */
  lemma {:induction false} DocumentsWritten(p: Processor, model: Option<Predictor>, lines: seq<string>, suffixes: seq<Suffix>)
    requires |suffixes| == |lines|
    ensures |ProcessAll(p, model, lines, suffixes).0.pending| == |p.pending| + AcceptedCount(lines)
  {
    if |lines| > 0 {
      DocumentsWritten(p, model, lines[..|lines| - 1], suffixes[..|lines| - 1]);
    }
  }

  /** Without a trained detector no batch is ever scored: nothing is reported and every
      accepted line stays in the buffer, which grows without bound. */
  lemma {:induction false} NoModelNeverReports(p: Processor, lines: seq<string>, suffixes: seq<Suffix>)
    requires |suffixes| == |lines|
    ensures ProcessAll(p, None, lines, suffixes).1 == []
    ensures |ProcessAll(p, None, lines, suffixes).0.buffer| == |p.buffer| + AcceptedCount(lines)
  {
    if |lines| > 0 {
      NoModelNeverReports(p, lines[..|lines| - 1], suffixes[..|lines| - 1]);
    }
  }

  /** With a detector, the buffer holds the accepted lines since the last full batch:
      its length is the count of accepted lines modulo the batch size. */
  lemma BufferCountsModulo(model: Predictor, lines: seq<string>, suffixes: seq<Suffix>)
    requires |suffixes| == |lines|
    ensures |ProcessAll(Initial, Some(model), lines, suffixes).0.buffer| == AcceptedCount(lines) % FeatureBufferSize
  {
    var batches := FullBatches(model, lines, suffixes);
    var b := ProcessAll(Initial, Some(model), lines, suffixes).0.buffer;
    BatchRemainder(AcceptedCount(lines), batches, |b|);
  }

  lemma BatchRemainder(count: nat, batches: nat, rest: nat)
    requires count == batches * FeatureBufferSize + rest && rest < FeatureBufferSize
    ensures rest == count % FeatureBufferSize
  {
  }

  /** The accepted lines so far fill some number of scored batches plus the buffer. */
  lemma {:induction false} FullBatches(model: Predictor, lines: seq<string>, suffixes: seq<Suffix>) returns (batches: nat)
    requires |suffixes| == |lines|
    ensures var b := ProcessAll(Initial, Some(model), lines, suffixes).0.buffer;
            AcceptedCount(lines) == batches * FeatureBufferSize + |b| && |b| < FeatureBufferSize
  {
    if |lines| == 0 {
      batches := 0;
    } else {
      var n := |lines| - 1;
      batches := FullBatches(model, lines[..n], suffixes[..n]);
      var before := ProcessAll(Initial, Some(model), lines[..n], suffixes[..n]).0;
      ProcessAllLast(Initial, Some(model), lines, suffixes);
      StepBuffer(before, Some(model), lines[n], suffixes[n]);
      if Accept(lines[n]).Success? && |before.buffer| + 1 >= FeatureBufferSize {
        batches := batches + 1;
      }
    }
  }

  /** The buffer length after one line. */
  lemma StepBuffer(p: Processor, model: Option<Predictor>, line: string, suffix: Suffix)
    ensures var b := ProcessLogEntry(p, model, line, suffix).next.buffer;
            if Accept(line).Failure? then b == p.buffer
            else if model.Some? && |p.buffer| + 1 >= FeatureBufferSize then b == []
            else |b| == |p.buffer| + 1
  {
  }

  lemma ProcessAllLast(p: Processor, model: Option<Predictor>, lines: seq<string>, suffixes: seq<Suffix>)
    requires |suffixes| == |lines| > 0
    ensures var n := |lines| - 1;
            ProcessAll(p, model, lines, suffixes).0
            == ProcessLogEntry(ProcessAll(p, model, lines[..n], suffixes[..n]).0, model, lines[n], suffixes[n]).next
    ensures AcceptedCount(lines)
            == AcceptedCount(lines[..|lines| - 1]) + (if Accept(lines[|lines| - 1]).Success? then 1 else 0)
  {
  }

  // ---------------------------------------------------------------------------
  // Training
  // ---------------------------------------------------------------------------

  /** The training path's check on one line read by `readline()`: the stripped line must
      be a csv record of seven fields; its timestamp is not checked, so a line with an
      unparsable timestamp trains with minute 0 and day -1. */
  function TrainingRow(line: string): (r: Option<FeatureVector>)
    ensures r.Some? <==> ParseLine(Strip(line)).Success? && |ParseLine(Strip(line)).value| == FieldCount
    ensures r.Some? ==> r.value == ExtractFeatures(ParseLine(Strip(line)).value)
  {
    match ParseLine(Strip(line))
    case Success(parts) => if |parts| == FieldCount then Some(ExtractFeatures(parts)) else None
    case Failure(_) => None
  }

  /** Every line the processor accepts would also serve for training, with the same features. */
  lemma AcceptedTrains(line: string)
    requires Accept(Strip(line)).Success?
    ensures TrainingRow(line) == Some(ExtractFeatures(Accept(Strip(line)).value.parts))
  {
  }

  /** ... but not conversely: a line whose stripped text is seven plain fields with a
      malformed timestamp trains (on day -1) and is skipped by the processor. */
  lemma TrainingIsLaxer(line: string, fs: seq<string>)
    requires |fs| == FieldCount && forall i :: 0 <= i < |fs| ==> Plain(fs[i])
    requires Parse(fs[TimestampField]).None? && Strip(line) == Join(fs, Delimiter)
    ensures TrainingRow(line).Some? && TrainingRow(line).value.dayOfWeek == -1
    ensures Accept(Strip(line)) == Failure(InvalidTimestamp)
  {
    PlainRoundTrip(fs);
  }

  /** `train_anomaly_detector`: no rows, no detector; otherwise the detector fitted on
      exactly the collected rows. */
  function Train(rows: seq<FeatureVector>, fit: seq<FeatureVector> -> Predictor): (model: Option<Predictor>)
    ensures model.None? <==> |rows| == 0
    ensures model.Some? ==> model.value == fit(rows)
  {
    if |rows| == 0 then None else Some(fit(rows))
  }
}

=== FILE: tailer.dfy ===
/** The processor's file handling: the training pass reads the log with `readline()`
    until it has enough seven-field rows, remembers `tell()`, and from then on each
    cycle seeks there, takes `readlines()` up to the end of the file and processes
    every line. The file is its decoded text and the offset a character position. */
module Tailer {
  import opened Common
  import opened CsvReader
  import opened Features
  import opened Pipeline

  // ---------------------------------------------------------------------------
  // Lines of text
  // ---------------------------------------------------------------------------

  /** Just past the first '\n' at or after `i`, or the end of the text. */
  function LineEnd(s: string, i: nat): (e: nat)
    requires i < |s|
    ensures i < e <= |s|
    ensures forall k :: i <= k < e - 1 ==> s[k] != '\n'
    ensures e == |s| || s[e - 1] == '\n'
    decreases |s| - i
  {
    if s[i] == '\n' || i + 1 == |s| then i + 1 else LineEnd(s, i + 1)
  }

  /** A line as `readline()` returns it: not empty, and a '\n' can only be its last character. */
  predicate IsLine(l: string) {
    |l| > 0 && forall k :: 0 <= k < |l| - 1 ==> l[k] != '\n'
  }

  predicate Terminated(l: string) {
    |l| > 0 && l[|l| - 1] == '\n'
  }

  /** A decomposition `readlines()` could return: lines, all but the last terminated. */
  predicate LineShaped(lines: seq<string>) {
    && (forall j :: 0 <= j < |lines| ==> IsLine(lines[j]))
    && (forall j :: 0 <= j < |lines| - 1 ==> Terminated(lines[j]))
  }

  /** `readlines()`: the text cut after every '\n'; the last line may lack one. */
  function SplitLines(s: string): (lines: seq<string>)
    ensures Concat(lines) == s
    ensures LineShaped(lines)
    ensures |lines| == 0 <==> |s| == 0
    decreases |s|
  {
    if |s| == 0 then []
    else
      var e := LineEnd(s, 0);
      var rest := SplitLines(s[e..]);
      assert s[..e] + s[e..] == s;
      assert ([s[..e]] + rest)[1..] == rest;
      [s[..e]] + rest
  }

  /** The decomposition is the only one: cutting the concatenation of lines shaped like
      `readlines()` output gives those lines back. */
  lemma {:induction false} SplitConcat(lines: seq<string>)
    requires LineShaped(lines)
    ensures SplitLines(Concat(lines)) == lines
    decreases |lines|
  {
    if |lines| > 0 {
      var s := Concat(lines);
      var l := lines[0];
      assert s == l + Concat(lines[1..]);
      assert LineShaped(lines[1..]) by {
        assert forall j :: 0 <= j < |lines| - 1 ==> lines[1..][j] == lines[j + 1];
      }
      LineEndOf(l, Concat(lines[1..]), |lines| == 1);
      assert s[..|l|] == l && s[|l|..] == Concat(lines[1..]);
      SplitConcat(lines[1..]);
      assert lines == [l] + lines[1..];
    }
  }

  /** The first line of `l + rest` is `l` when `l` is a line that is terminated or last. */
  lemma LineEndOf(l: string, rest: string, last: bool)
    requires IsLine(l) && (Terminated(l) || (last && rest == ""))
    ensures LineEnd(l + rest, 0) == |l|
  {
    var s := l + rest;
    assert forall k :: 0 <= k < |l| ==> s[k] == l[k];
  }

  /** A single line reads as itself. */
  lemma SingleLine(l: string)
    requires IsLine(l)
    ensures SplitLines(l) == [l]
  {
    assert [l][1..] == [];
    assert Concat([l]) == l + "";
    assert l + "" == l;
    assert LineShaped([l]);
    SplitConcat([l]);
  }

  /** The last line of a non-empty text ends with the text's last character. */
  lemma LastLineEnds(s: string)
    requires |s| > 0
    ensures var ls := SplitLines(s); ls[|ls| - 1][|ls[|ls| - 1]| - 1] == s[|s| - 1]
  {
    var ls := SplitLines(s);
    assert IsLine(ls[|ls| - 1]);
    ConcatLast(ls);
  }

  /** Shaped lines followed by shaped lines stay shaped when the first part ends terminated. */
  lemma ShapedAppend(la: seq<string>, lb: seq<string>)
    requires LineShaped(la) && LineShaped(lb)
    requires |la| == 0 || Terminated(la[|la| - 1])
    ensures LineShaped(la + lb)
  {
    var ls := la + lb;
    forall j | 0 <= j < |ls| ensures IsLine(ls[j]) {
      if j < |la| { assert ls[j] == la[j]; } else { assert ls[j] == lb[j - |la|]; }
    }
    forall j | 0 <= j < |ls| - 1 ensures Terminated(ls[j]) {
      if j < |la| { assert ls[j] == la[j]; } else { assert ls[j] == lb[j - |la|]; }
    }
  }

  /** Text cut at a line boundary reads as the lines of each part. */
  lemma SplitAppend(a: string, b: string)
    requires |a| == 0 || a[|a| - 1] == '\n'
    ensures SplitLines(a + b) == SplitLines(a) + SplitLines(b)
  {
    var la, lb := SplitLines(a), SplitLines(b);
    if |a| > 0 {
      LastLineEnds(a);
    }
    ShapedAppend(la, lb);
    ConcatAppend(la, lb);
    SplitConcat(la + lb);
  }

  // ---------------------------------------------------------------------------
  // Polling
  // ---------------------------------------------------------------------------

  /** `f.seek(offset); lines = f.readlines(); offset = f.tell()`. Every complete or
      partial line from the offset on is taken; a position past the end of a file that
      shrank reads nothing and stays where it is. */
  function Poll(file: string, offset: nat): (r: (seq<string>, nat))
    ensures offset <= |file| ==> Concat(r.0) == file[offset..] && r.1 == |file|
    ensures offset > |file| ==> r == ([], offset)
    ensures LineShaped(r.0)
  {
    if offset <= |file| then (SplitLines(file[offset..]), |file|) else ([], offset)
  }

  /** Polling the file once per snapshot, from `offset`: the lines of every poll, in
      order, and the final offset. The offset never moves back: it ends at the starting
      offset or at the end of some snapshot, and at or past the end of every one. */
  function Follow(snapshots: seq<string>, offset: nat): (r: (seq<string>, nat))
    ensures r.1 >= offset && forall i :: 0 <= i < |snapshots| ==> r.1 >= |snapshots[i]|
  {
    if |snapshots| == 0 then ([], offset)
    else
      var n := |snapshots| - 1;
      var front := Follow(snapshots[..n], offset);
      var poll := Poll(snapshots[n], front.1);
      assert forall i :: 0 <= i < n ==> snapshots[..n][i] == snapshots[i];
      (front.0 + poll.0, poll.1)
  }

  /** Each snapshot of the file extends every earlier one. */
  predicate Grows(snapshots: seq<string>) {
    forall i, j :: 0 <= i <= j < |snapshots| ==> snapshots[i] <= snapshots[j]
  }

  /** The last snapshot is polled from where the earlier ones left the offset. */
  lemma FollowLast(snapshots: seq<string>, offset: nat)
    requires |snapshots| > 0
    ensures var n := |snapshots| - 1;
            var front := Follow(snapshots[..n], offset);
            var poll := Poll(snapshots[n], front.1);
            Follow(snapshots, offset) == (front.0 + poll.0, poll.1)
  {
  }

  /** The offset never lands anywhere but the start or the end of some snapshot. */
  lemma {:induction false} FollowEnds(snapshots: seq<string>, offset: nat)
    ensures var end := Follow(snapshots, offset).1;
            end == offset || exists i :: 0 <= i < |snapshots| && end == |snapshots[i]|
  {
    if |snapshots| > 0 {
      var n := |snapshots| - 1;
      var front := Follow(snapshots[..n], offset);
      FollowLast(snapshots, offset);
      if front.1 <= |snapshots[n]| {
        assert Follow(snapshots, offset).1 == |snapshots[n]|;
      } else {
        FollowEnds(snapshots[..n], offset);
        if front.1 != offset {
          var i :| 0 <= i < n && front.1 == |snapshots[..n][i]|;
          assert snapshots[..n][i] == snapshots[i];
        }
      }
    }
  }

  lemma {:induction false} FollowCovers(snapshots: seq<string>, offset: nat)
    requires |snapshots| > 0 && Grows(snapshots) && offset <= |snapshots[0]|
    ensures var last := snapshots[|snapshots| - 1];
            && Follow(snapshots, offset).1 == |last|
            && Concat(Follow(snapshots, offset).0) == last[offset..]
  {
    var n := |snapshots| - 1;
    var last := snapshots[n];
    FollowLast(snapshots, offset);
    if n == 0 {
      assert snapshots[..0] == [];
      assert Follow([], offset) == ([], offset);
      assert [] + Poll(last, offset).0 == Poll(last, offset).0;
    } else {
      var front := Follow(snapshots[..n], offset);
      var prev := snapshots[n - 1];
      assert front.1 == |prev| && Concat(front.0) == prev[offset..] by {
        GrowsPrefix(snapshots, n);
        FollowCovers(snapshots[..n], offset);
        assert snapshots[..n][n - 1] == prev;
      }
      assert prev <= last;
      PollAfter(front.0, prev, last, offset);
    }
  }

  lemma GrowsPrefix(snapshots: seq<string>, n: nat)
    requires Grows(snapshots) && n <= |snapshots|
    ensures Grows(snapshots[..n])
  {
  }

  /** Lines that covered `prev` from `offset`, followed by a poll of `last` from the end
      of `prev`, cover `last` from `offset`. */
  lemma PollAfter(lines: seq<string>, prev: string, last: string, offset: nat)
    requires prev <= last && offset <= |prev| && Concat(lines) == prev[offset..]
    ensures var poll := Poll(last, |prev|);
            poll.1 == |last| && Concat(lines + poll.0) == last[offset..]
  {
    ConcatAppend(lines, Poll(last, |prev|).0);
    assert prev[offset..] + last[|prev|..] == last[offset..];
  }

  /** There is no hold-back of a partial last line: the first poll hands over the text
      after the offset as it stands, and the second starts where that text ended. A line
      caught half written therefore comes out as two lines, one per poll. */
  lemma PartialLineSplits(a: string, b: string, o: nat)
    requires o <= |a|
    ensures Follow([a, a + b], o).0 == SplitLines(a[o..]) + SplitLines(b)
  {
    FollowOne(a, o);
    FollowTwo(a, a + b, o);
    assert (a + b)[|a|..] == b;
  }

  lemma FollowOne(a: string, o: nat)
    requires o <= |a|
    ensures Follow([a], o) == (SplitLines(a[o..]), |a|)
  {
    assert [a][..0] == [];
    assert Follow([], o) == ([], o);
    assert [] + SplitLines(a[o..]) == SplitLines(a[o..]);
  }

  lemma FollowTwo(a: string, c: string, o: nat)
    ensures var first := Follow([a], o);
            Follow([a, c], o) == (first.0 + Poll(c, first.1).0, Poll(c, first.1).1)
  {
    assert [a, c][..1] == [a];
  }

  /** The line "ab" polled once is one line, and polled half written is two. */
  lemma PartialLineExample()
    ensures Poll("ab", 0).0 == ["ab"]
    ensures Follow(["a", "ab"], 0).0 == ["a", "b"]
  {
    PartialLineSplits("a", "b", 0);
    assert "a" + "b" == "ab" && "ab"[0..] == "ab" && "a"[0..] == "a";
    SingleLine("ab");
    SingleLine("a");
    SingleLine("b");
  }

  // ---------------------------------------------------------------------------
  // Training collection
  // ---------------------------------------------------------------------------

  /** The row one line gives: none, or one. */
  function RowOf(line: string): (rows: seq<FeatureVector>)
    ensures |rows| <= 1
    ensures |rows| == 1 <==> TrainingRow(line).Some?
  {
    match TrainingRow(line)
    case Some(f) => [f]
    case None => []
  }

  /** The training rows of a sequence of lines, in order. */
  function TrainingRows(lines: seq<string>): seq<FeatureVector> {
    FlatMap(RowOf, lines)
  }

  function Min(a: nat, b: nat): nat {
    if a <= b then a else b
  }

  /** The state of the training pass between two reads: at a line boundary (the start,
      the end, or just past a '\n'), holding the rows of the lines read so far. */
  predicate Collected(file: string, offset: nat, rows: seq<FeatureVector>) {
    && offset <= |file| && (offset == 0 || offset == |file| || file[offset - 1] == '\n')
    && rows == TrainingRows(SplitLines(file[..offset]))
    && |rows| <= TrainingLogCount
    && (offset > 0 || rows == [])
  }

  /** The last line read before `offset` gave a training row. */
  predicate EndsOnRow(file: string, offset: nat)
    requires offset <= |file|
  {
    var ls := SplitLines(file[..offset]);
    |ls| > 0 && TrainingRow(ls[|ls| - 1]).Some?
  }

  /** The training pass: `readline()` until end of file or until TrainingLogCount lines
      have given a row. The rows are the first rows the whole file offers, up to the
      limit, and the offset is where the next read begins: the end of the file, or just
      past the line that gave the last row. */
  method CollectTraining(file: string) returns (rows: seq<FeatureVector>, offset: nat)
    ensures var all := TrainingRows(SplitLines(file));
            rows == all[..Min(|all|, TrainingLogCount)]
    ensures Collected(file, offset, rows)
    ensures offset < |file| ==> |rows| == TrainingLogCount
    ensures |rows| == TrainingLogCount ==> EndsOnRow(file, offset)
  {
    rows := [];
    offset := 0;
    assert file[..0] == "";
    while |rows| < TrainingLogCount && offset < |file|
      invariant Collected(file, offset, rows)
      invariant |rows| == TrainingLogCount ==> EndsOnRow(file, offset)
      decreases |file| - offset
    {
      var e := LineEnd(file, offset);
      ReadLineStep(file, offset, rows);
      ReadLineRow(file, offset);
      rows := rows + RowOf(file[offset..e]);
      offset := e;
    }
    RestOfFile(file, offset, rows);
  }

  /** A line that gives a row and is the last one read leaves the pass ending on a row. */
  lemma ReadLineRow(file: string, offset: nat)
    requires offset < |file| && (offset == 0 || file[offset - 1] == '\n')
    ensures var e := LineEnd(file, offset);
            |RowOf(file[offset..e])| == 1 ==> EndsOnRow(file, e)
  {
    ReadLine(file, offset);
  }

  /** One `readline()` from a line boundary takes exactly the next line. */
  lemma ReadLine(file: string, offset: nat)
    requires offset < |file| && (offset == 0 || file[offset - 1] == '\n')
    ensures var e := LineEnd(file, offset);
            SplitLines(file[..e]) == SplitLines(file[..offset]) + [file[offset..e]]
  {
    var e := LineEnd(file, offset);
    var line := file[offset..e];
    assert file[..e] == file[..offset] + line;
    SplitAppend(file[..offset], line);
    SingleLine(line);
  }

  /** Reading one more line keeps the training pass in step. */
  lemma ReadLineStep(file: string, offset: nat, rows: seq<FeatureVector>)
    requires Collected(file, offset, rows) && offset < |file| && |rows| < TrainingLogCount
    ensures var e := LineEnd(file, offset);
            Collected(file, e, rows + RowOf(file[offset..e]))
  {
    var e := LineEnd(file, offset);
    ReadLine(file, offset);
    var before := SplitLines(file[..offset]);
    assert (before + [file[offset..e]])[..|before|] == before;
  }

  /** The rows of text cut at a line boundary are the rows of each part. */
  lemma RowsAppend(a: string, b: string)
    requires |a| == 0 || a[|a| - 1] == '\n'
    ensures TrainingRows(SplitLines(a + b)) == TrainingRows(SplitLines(a)) + TrainingRows(SplitLines(b))
  {
    SplitAppend(a, b);
    FlatMapAppend(RowOf, SplitLines(a), SplitLines(b));
  }

  /** Where the training pass stops, the rows it holds are the first ones the file offers. */
  lemma RestOfFile(file: string, offset: nat, rows: seq<FeatureVector>)
    requires Collected(file, offset, rows)
    requires offset < |file| ==> |rows| == TrainingLogCount
    ensures var all := TrainingRows(SplitLines(file));
            rows == all[..Min(|all|, TrainingLogCount)]
  {
    if offset == |file| {
      assert file[..offset] == file;
    } else {
      CutAt(file, offset);
      RowsAppend(file[..offset], file[offset..]);
      var rest := TrainingRows(SplitLines(file[offset..]));
      assert (rows + rest)[..|rows|] == rows;
    }
  }

  // ---------------------------------------------------------------------------
  // Monitoring
  // ---------------------------------------------------------------------------

  datatype Monitor = Monitor(offset: nat, processor: Processor)

  /** The suffixes drawn for `n` lines, one per line. */
  function Draws(draw: nat -> Suffix, n: nat): (s: seq<Suffix>)
    ensures |s| == n
  {
    seq(n, k requires 0 <= k => draw(k))
  }

  /** The stripped lines handed to `process_log_entry`. */
  function Stripped(lines: seq<string>): (r: seq<string>)
    ensures |r| == |lines| && forall j :: 0 <= j < |lines| ==> r[j] == Strip(lines[j])
  {
    seq(|lines|, j requires 0 <= j < |lines| => Strip(lines[j]))
  }

  /** One pass of the monitoring loop: poll, process every stripped line, and commit
      the index only when the poll returned lines. Returns the new state and the
      reported lines. */
  function Cycle(m: Monitor, file: string, model: Option<Predictor>, draw: nat -> Suffix): (r: (Monitor, seq<string>))
    ensures m.offset <= |file| ==> r.0.offset == |file|
    ensures m.offset > |file| ==> r == (m, [])
    ensures Poll(file, m.offset).0 == [] ==> r == (Monitor(r.0.offset, m.processor), [])
    ensures Poll(file, m.offset).0 != [] ==> r.0.processor.pending == []
  {
    var poll := Poll(file, m.offset);
    if poll.0 == [] then (Monitor(poll.1, m.processor), [])
    else
      var lines := Stripped(poll.0);
      var run := ProcessAll(m.processor, model, lines, Draws(draw, |lines|));
      (Monitor(poll.1, Commit(run.0)), run.1)
  }

  /** What a cycle commits: everything pending before it plus one document per
      accepted line it read. */
  lemma CycleCommits(m: Monitor, file: string, model: Option<Predictor>, draw: nat -> Suffix)
    requires m.offset < |file|
    ensures var lines := Stripped(Poll(file, m.offset).0);
            |Cycle(m, file, model, draw).0.processor.committed|
              == |m.processor.committed| + |m.processor.pending| + AcceptedCount(lines)
  {
    var lines := Stripped(Poll(file, m.offset).0);
    DocumentsWritten(m.processor, model, lines, Draws(draw, |lines|));
  }
}

=== FILE: timestamp.dfy ===
/** The log timestamp `YYYY-MM-DD HH:MM:SS`: `strptime` with that format, restricted to
    its canonical 19-character spelling, and `strftime` with the same format. */
module Timestamp {
  import opened Common
  import opened Calendar

  const Width := 19

  /** The number written by the two digits `s[i]`, `s[i + 1]`. */
  function Digits2(s: string, i: nat): (n: nat)
    requires i + 2 <= |s| && IsDigit(s[i]) && IsDigit(s[i + 1])
    ensures n < 100
  {
    10 * DigitValue(s[i]) + DigitValue(s[i + 1])
  }

  /** `YYYY-MM-DD HH:MM:SS` with every Y, M, D, H, M, S an ASCII digit. */
  predicate Shaped(s: string) {
    && |s| == Width
    && s[4] == '-' && s[7] == '-' && s[10] == ' ' && s[13] == ':' && s[16] == ':'
    && IsDigit(s[0]) && IsDigit(s[1]) && IsDigit(s[2]) && IsDigit(s[3])
    && IsDigit(s[5]) && IsDigit(s[6]) && IsDigit(s[8]) && IsDigit(s[9])
    && IsDigit(s[11]) && IsDigit(s[12]) && IsDigit(s[14]) && IsDigit(s[15])
    && IsDigit(s[17]) && IsDigit(s[18])
  }

  /** The fields a shaped string spells, before any range check. */
  function Fields(s: string): DateTime
    requires Shaped(s)
  {
    DateTime(100 * Digits2(s, 0) + Digits2(s, 2), Digits2(s, 5), Digits2(s, 8),
             Digits2(s, 11), Digits2(s, 14), Digits2(s, 17))
  }

  /** `datetime.strptime(s, "%Y-%m-%d %H:%M:%S")`, None where it raises ValueError:
      the text must have the shape and the fields must name an existing instant
      (year 1..9999, a day that exists in its month, hour < 24, minute and second < 60). */
  function Parse(s: string): (r: Option<DateTime>)
    ensures r.Some? ==> Valid(r.value) && Shaped(s) && r.value == Fields(s)
    ensures Shaped(s) && Valid(Fields(s)) ==> r.Some?
  {
    if Shaped(s) && Valid(Fields(s)) then Some(Fields(s)) else None
  }

  /** `%m`, `%d`, `%H`, `%M`, `%S`: two digits, zero padded. */
  function Pad2(n: nat): (r: string)
    requires n < 100
    ensures |r| == 2 && AllDigits(r) && Digits2(r, 0) == n
  {
    [DigitChar(n / 10), DigitChar(n % 10)]
  }

  /** `%Y` as the C library formats it: the year's decimal digits, not padded. */
  function YearText(y: nat): (r: string)
    ensures r == DecimalString(y)
    ensures 1000 <= y < 10000 ==> |r| == 4
  {
    if 1000 <= y < 10000 then FourDigitDecimal(y); DecimalString(y) else DecimalString(y)
  }

  /** `t.strftime("%Y-%m-%d %H:%M:%S")`. With a four-digit year the text has the
      canonical shape and spells exactly `t`. */
  function Format(t: DateTime): (r: string)
    requires Valid(t)
    ensures 1000 <= t.year ==> |r| == Width && Shaped(r) && Fields(r) == t
  {
    if 1000 <= t.year then FormatSpells(t); Spelled(t) else Spelled(t)
  }

  /** The pieces of the format, in order. */
  function Spelled(t: DateTime): string
    requires Valid(t)
  {
    YearText(t.year) + "-" + Pad2(t.month) + "-" + Pad2(t.day) + " "
      + Pad2(t.hour) + ":" + Pad2(t.minute) + ":" + Pad2(t.second)
  }

  lemma FormatSpells(t: DateTime)
    requires Valid(t) && 1000 <= t.year
    ensures var s := Spelled(t); |s| == Width && Shaped(s) && Fields(s) == t
  {
    var s := Spelled(t);
    YearDigits(t.year);
    assert s[..4] == YearText(t.year);
    assert s[5..7] == Pad2(t.month) && s[8..10] == Pad2(t.day);
    assert s[11..13] == Pad2(t.hour) && s[14..16] == Pad2(t.minute) && s[17..19] == Pad2(t.second);
  }

  /** `t.strftime("%Y%m%d%H%M%S%f")`: the same digits without separators, then six
      zero microsecond digits (a parsed timestamp has no fraction of a second). */
  function CompactStamp(t: DateTime): (r: string)
    requires Valid(t)
    ensures AllDigits(r)
    ensures 1000 <= t.year ==> |r| == 20
    ensures var n := |r| - 16;
            && n >= 1 && DecimalValue(r[..n]) == t.year
            && Digits2(r, n) == t.month && Digits2(r, n + 2) == t.day && Digits2(r, n + 4) == t.hour
            && Digits2(r, n + 6) == t.minute && Digits2(r, n + 8) == t.second && r[n + 10..] == "000000"
  {
    StampSpells(t);
    YearText(t.year) + StampTail(t)
  }

  lemma StampSpells(t: DateTime)
    requires Valid(t)
    ensures var y, tail := YearText(t.year), StampTail(t);
            var r := y + tail;
            && AllDigits(r) && DecimalValue(r[..|y|]) == t.year && r[|y| + 10..] == "000000"
            && Digits2(r, |y|) == t.month && Digits2(r, |y| + 2) == t.day && Digits2(r, |y| + 4) == t.hour
            && Digits2(r, |y| + 6) == t.minute && Digits2(r, |y| + 8) == t.second
  {
    var y, tail := YearText(t.year), StampTail(t);
    var r := y + tail;
    DecimalRoundTrip(t.year);
    assert r[..|y|] == y;
    assert r[|y| + 10..] == tail[10..];
    assert r[|y|..|y| + 10] == tail[..10];
  }

  /** The sixteen digits after the year: month, day, hour, minute, second, microseconds. */
  function StampTail(t: DateTime): (r: string)
    requires Valid(t)
    ensures |r| == 16 && AllDigits(r)
    ensures Digits2(r, 0) == t.month && Digits2(r, 2) == t.day && Digits2(r, 4) == t.hour
    ensures Digits2(r, 6) == t.minute && Digits2(r, 8) == t.second && r[10..] == "000000"
  {
    var r := Pad2(t.month) + Pad2(t.day) + Pad2(t.hour) + Pad2(t.minute) + Pad2(t.second) + "000000";
    assert r[0..2] == Pad2(t.month) && r[2..4] == Pad2(t.day) && r[4..6] == Pad2(t.hour);
    assert r[6..8] == Pad2(t.minute) && r[8..10] == Pad2(t.second) && r[10..] == "000000";
    r
  }

  lemma YearDigits(y: nat)
    requires 1000 <= y < 10000
    ensures var r := YearText(y); |r| == 4 && AllDigits(r) && 100 * Digits2(r, 0) + Digits2(r, 2) == y
  {
    FourDigitDecimal(y);
  }

  /** Formatting then parsing gives back the instant, for every four-digit year. */
  lemma ParseFormat(t: DateTime)
    requires Valid(t) && 1000 <= t.year
    ensures Parse(Format(t)) == Some(t)
  {
  }

  lemma DigitRoundTrip(c: char)
    requires IsDigit(c)
    ensures DigitChar(DigitValue(c)) == c
  {
  }

  lemma Pad2Digits(s: string, i: nat)
    requires i + 2 <= |s| && IsDigit(s[i]) && IsDigit(s[i + 1])
    ensures Pad2(Digits2(s, i)) == s[i..i + 2]
  {
    DigitRoundTrip(s[i]);
    DigitRoundTrip(s[i + 1]);
  }

  lemma FourDigits(a: nat, b: nat, c: nat, d: nat)
    requires 1 <= a < 10 && b < 10 && c < 10 && d < 10
    ensures var y := 1000 * a + 100 * b + 10 * c + d;
            y / 1000 == a && y / 100 % 10 == b && y / 10 % 10 == c && y % 10 == d
  {
    var y := 1000 * a + 100 * b + 10 * c + d;
    assert y / 1000 == a;
    assert y / 100 == 10 * a + b;
    assert (10 * a + b) % 10 == b;
    assert y / 10 == 100 * a + 10 * b + c;
    assert (100 * a + 10 * b + c) % 10 == c;
  }

  /** Four digits naming a year of at least 1000 are exactly what `%Y` prints for it. */
  lemma YearTextOfDigits(s: string)
    requires |s| >= 4 && IsDigit(s[0]) && IsDigit(s[1]) && IsDigit(s[2]) && IsDigit(s[3])
    requires 1000 <= 100 * Digits2(s, 0) + Digits2(s, 2)
    ensures YearText(100 * Digits2(s, 0) + Digits2(s, 2)) == s[..4]
  {
    var y := 100 * Digits2(s, 0) + Digits2(s, 2);
    var a, b, c, d := DigitValue(s[0]), DigitValue(s[1]), DigitValue(s[2]), DigitValue(s[3]);
    assert y == 1000 * a + 100 * b + 10 * c + d;
    FourDigits(a, b, c, d);
    FourDigitDecimal(y);
    DigitRoundTrip(s[0]);
    DigitRoundTrip(s[1]);
    DigitRoundTrip(s[2]);
    DigitRoundTrip(s[3]);
  }

  lemma Assemble(s: string)
    requires |s| == Width
    ensures s == s[..4] + [s[4]] + s[5..7] + [s[7]] + s[8..10] + [s[10]] + s[11..13] + [s[13]]
                 + s[14..16] + [s[16]] + s[17..19]
  {
  }

  /** Parsing then formatting gives back the text: the canonical spelling of an
      instant is unique (for four-digit years, which `%Y` prints unpadded otherwise). */
  lemma FormatParse(s: string)
    requires Parse(s).Some? && 1000 <= Parse(s).value.year
    ensures Format(Parse(s).value) == s
  {
    YearTextOfDigits(s);
    Pad2Digits(s, 5);
    Pad2Digits(s, 8);
    Pad2Digits(s, 11);
    Pad2Digits(s, 14);
    Pad2Digits(s, 17);
    Assemble(s);
  }

  /** Distinct instants never share a compact stamp, whatever the length of their
      years: the sixteen digits after the year fix its length, `str` of a year is
      unique, and the rest spells month, day, hour, minute and second. */
  lemma CompactStampInjective(t: DateTime, u: DateTime)
    requires Valid(t) && Valid(u)
    ensures CompactStamp(t) == CompactStamp(u) <==> t == u
  {
    if CompactStamp(t) == CompactStamp(u) {
      var s := CompactStamp(t);
      var a, b := YearText(t.year), YearText(u.year);
      var n := |s| - 16;
      assert |a| == n == |b|;
      assert a == s[..n] == b;
      DecimalStringInjective(t.year, u.year);
      assert StampTail(t) == s[n..] == StampTail(u);
    }
  }
}

=== FILE: weighted.dfy ===
/** `random.choices(population, weights=w, k=1)[0]` as an index into the population:
    the running totals of the weights, then `bisect_right` of `random() * total` in
    them, searching only the first `n - 1` totals so the index stays below `n`. The
    random number is a parameter. */
module Weighted {

  function Sum(ws: seq<nat>): nat {
    if |ws| == 0 then 0 else Sum(ws[..|ws| - 1]) + ws[|ws| - 1]
  }

  predicate Sorted(a: seq<nat>) {
    forall i, j :: 0 <= i <= j < |a| ==> a[i] <= a[j]
  }

  /** `list(itertools.accumulate(ws))`: entry `i` is the sum of the first `i + 1` weights. */
  function CumWeights(ws: seq<nat>): (c: seq<nat>)
    ensures |c| == |ws|
    ensures forall i :: 0 <= i < |c| ==> c[i] == Sum(ws[..i + 1])
    ensures Sorted(c)
  {
    if |ws| == 0 then []
    else
      var n := |ws| - 1;
      var front := CumWeights(ws[..n]);
      assert ws[..n + 1] == ws;
      forall i | 0 <= i < n ensures front[i] == Sum(ws[..i + 1]) {
        assert ws[..n][..i + 1] == ws[..i + 1];
      }
      assert n > 0 ==> front[n - 1] == Sum(ws[..n]) <= Sum(ws);
      front + [Sum(ws)]
  }

  /** `bisect.bisect_right(a, x, lo, hi)`: the first position in `[lo, hi)` whose entry
      exceeds `x`, or `hi` when there is none. */
  function BisectRight(a: seq<nat>, x: real, lo: nat, hi: nat): (r: nat)
    requires lo <= hi <= |a| && Sorted(a)
    ensures lo <= r <= hi
    ensures forall i :: lo <= i < r ==> a[i] as real <= x
    ensures forall i :: r <= i < hi ==> x < a[i] as real
    decreases hi - lo
  {
    if lo < hi then
      var mid := (lo + hi) / 2;
      if x < a[mid] as real then BisectRight(a, x, lo, mid) else BisectRight(a, x, mid + 1, hi)
    else lo
  }

  lemma SumLast(ws: seq<nat>, k: nat)
    requires k < |ws|
    ensures Sum(ws[..k + 1]) == Sum(ws[..k]) + ws[k]
  {
    assert ws[..k + 1][..k] == ws[..k];
  }

  /** `random() * total`, the point searched for. A fraction below one of a positive
      total stays below it. */
  function Scale(u: real, total: nat): (x: real)
    ensures 0.0 <= u < 1.0 && total > 0 ==> 0.0 <= x < total as real
  {
    u * total as real
  }

  /** The index `random.choices` returns for the random number `u`: a position of the
      population. */
  function ChooseWeighted(ws: seq<nat>, u: real): (k: nat)
    requires |ws| > 0
    ensures k < |ws|
  {
    BisectRight(CumWeights(ws), Scale(u, Sum(ws)), 0, |ws| - 1)
  }

  /** Searching the running totals for a point of `[0, total)` finds the slice that
      holds it. */
  lemma BisectInterval(ws: seq<nat>, x: real)
    requires |ws| > 0 && 0.0 <= x < Sum(ws) as real
    ensures var k := BisectRight(CumWeights(ws), x, 0, |ws| - 1);
            && k < |ws|
            && Sum(ws[..k]) as real <= x < Sum(ws[..k + 1]) as real
            && ws[k] > 0
  {
    var k := BisectRight(CumWeights(ws), x, 0, |ws| - 1);
    BisectBelow(ws, x);
    BisectAbove(ws, x);
    SumLast(ws, k);
  }

  /** Every total before the found position is at most the point. */
  lemma BisectBelow(ws: seq<nat>, x: real)
    requires |ws| > 0 && 0.0 <= x
    ensures var k := BisectRight(CumWeights(ws), x, 0, |ws| - 1);
            Sum(ws[..k]) as real <= x
  {
    var cum := CumWeights(ws);
    var k := BisectRight(cum, x, 0, |ws| - 1);
    if k > 0 {
      assert cum[k - 1] as real <= x;
    }
  }

  /** The total at the found position exceeds the point: searched, or the grand total. */
  lemma BisectAbove(ws: seq<nat>, x: real)
    requires |ws| > 0 && x < Sum(ws) as real
    ensures var k := BisectRight(CumWeights(ws), x, 0, |ws| - 1);
            x < Sum(ws[..k + 1]) as real
  {
    var cum := CumWeights(ws);
    var n := |ws|;
    var k := BisectRight(cum, x, 0, n - 1);
    if k < n - 1 {
      assert x < cum[k] as real;
    } else {
      assert ws[..n] == ws;
    }
  }

  /** The chosen index `k` is the one whose slice `[Sum(ws[..k]), Sum(ws[..k + 1]))` of
      `[0, total)` holds `u * total`: each index is chosen for a share of the unit
      interval proportional to its weight, and an index of weight zero never is. */
  lemma ChooseWeightedInterval(ws: seq<nat>, u: real)
    requires |ws| > 0 && Sum(ws) > 0 && 0.0 <= u < 1.0
    ensures var k := ChooseWeighted(ws, u);
            && Sum(ws[..k]) as real <= Scale(u, Sum(ws)) < Sum(ws[..k + 1]) as real
            && ws[k] > 0
  {
    BisectInterval(ws, Scale(u, Sum(ws)));
  }
}
